=== FILE: README.md ===
# Scene scripts and audio features of the 3D audio visualiser

This project models, in Dafny, the core of a browser application that animates a
three.js scene from live audio. Three pieces are modelled.

- **The line-oriented script parser** `parseScriptAndUpdateObjects`
  (`src/utils/ParseScript.js`). A script is a sequence of blocks
  `Name:cube{`, mapping lines `property(lo,hi)<>audioProperty(lo,hi)`, then `}`.
  The script is trimmed and split at line feeds, and each line is trimmed and
  classified. A fold with an "open object" cursor turns the lines into scene
  objects. The first line that throws aborts the whole parse.
- **The structured-document front end** of the editor
  (`src/components/Editor/ParseScriptComponent.js`).
  - `parseScript` normalises a JSON array of object records field by field:
    `||` defaults, `parseInt(_, 16)` for string colours, `getGeometry`'s
    `switch`, and `layer`'s `!== undefined` test.
  - The `useEffect` on a new script updates the log, the objects and the push
    flag.
- **The audio handler** (`src/utils/AudioHandler.js`).
  - `processAudio` reduces the analyser's 512-byte spectrum to the average
    volume and the mean of each third. `slice` truncates the fractional bounds
    `n/3` and `2n/3`.
  - `stopProcessing` clears the processing flag.
  - The listener registry is `addListener`, `removeListener` (a `filter` on
    `!==`) and `notifyListeners`.

The JavaScript library behaviour the code relies on is modelled exactly in small
modules:

- `String.prototype.trim`, `split`, `indexOf`, `startsWith`, `includes`, and
  first-occurrence `replace` (`JsStrings`);
- truthiness, `||`, and property reads on decoded JSON (`JsValues`);
- `parseInt(s, 16)`, with white space, sign, `0x` prefix, longest digit prefix
  and NaN (`JsNumbers`).

| file | module | contents |
|---|---|---|
| wrappers.dfy | `Wrappers` | `Option` (JavaScript `undefined`), `Result` (a thrown error) |
| seqs.dfy | `Seqs` | element-wise `Map` |
| js_values.dfy | `JsValues` | JavaScript values, falsiness, `||`, field reads |
| js_strings.dfy | `JsStrings` | trim, search, split and join, first-occurrence replace |
| js_numbers.dfy | `JsNumbers` | `parseInt(_, 16)` and its round trip |
| scene.dfy | `Scene` | geometry kinds, the default colour `0x00ff00`, transform vectors, the error prefix |
| parse_script.dfy | `ParseScript` | the line parser, its round trip, the editor's initial script |
| parse_script_component.dfy | `ParseScriptComponent` | document normalisation, the component's state update |
| averages.dfy | `Averages` | `reduce`-sums and means |
| audio_handler.dfy | `AudioHandler` | features of a spectrum, processing flag, listener registry |

Some behaviours of the code that a reader might not expect, all modelled as
written:

- A `cube` block opened while another is open silently replaces the unfinished
  object. Nothing rejects it. An opener of any other type throws there as it
  does everywhere.
- A `}` with no open block is ignored. Nothing rejects it either.
- The line grammar accepts only types that start with `cube`. `sphere` is
  rejected there, as an "Unsupported object type".
- The object type is the trimmed text between the first and the second `:`.
  This follows the destructuring of `split(':')`. The `{` stays part of it:
  `Object1:cube{` has the type `cube{`.
- No range is rejected for equal audio bounds. Range tokens are never checked
  to be numeric.
- A listener that throws is not isolated from the others.

## Model

| member | source | states |
|---|---|---|
| ParseScript.ParseScriptAndUpdateObjects | src/utils/ParseScript.js:4-82 | A non-string or empty script is rejected with "Invalid script provided", and nothing else is. A script of white space only yields no objects. Every object returned has the cube geometry, the green colour and the identity transform, because the line grammar cannot set them. |
| ParseScript.Message | src/utils/ParseScript.js:76-79 | Every error thrown while reading the lines is rethrown with the text "Error parsing script: " in front. The message for a bad mapping ends with the offending line. |
| ParseScript.Classify | src/utils/ParseScript.js:16-45 | A line counts as blank exactly when it is all white space. It is a closer exactly when its trimmed text is `}`, so an indented `  }` closes a block too. Any other line that is not an opener is kept trimmed and non-empty, and lacks a `:` or a `{`. |
| ParseScript.Tokens | src/utils/ParseScript.js:13-17 | There is one classified line per line-feed-separated piece of the trimmed script, in order. There are at least two exactly when the trimmed script holds a line feed. |
| ParseScript.NewObject | src/utils/ParseScript.js:29-40 | An opener creates an object with the given name, the cube geometry, the green colour, position and rotation `[0, 0, 0]`, scale `[1, 1, 1]` and no mappings. |
| ParseScript.ReadBounds | src/utils/ParseScript.js:62-64 | There is a second bound exactly when a comma is left after the first `)` is removed. |
| ParseScript.BoundsLo | src/utils/ParseScript.js:62-64 | The first bound is the text, with its first `)` removed, up to the first comma or the end. |
| ParseScript.BoundsHi | src/utils/ParseScript.js:62-64 | The second bound is the text between the first comma and the second comma or the end. Anything after a second comma is dropped. |
| ParseScript.ParseSide | src/utils/ParseScript.js:61-64 | Reading one side of a mapping fails exactly when the side has no `(`. The failure is the TypeError from `replace` on `undefined`. |
| ParseScript.SideFields | src/utils/ParseScript.js:61-64 | For a side whose first `(` is at `p`, the name is the trimmed text before `p`. The bounds are read from the text after `p`, up to the next `(` or the end. |
| ParseScript.ParseMapping | src/utils/ParseScript.js:55-58 | A line with no `<>`, or one that starts with `<>`, throws "Invalid property mapping" carrying the line. A mapping is only read when a `(` is present. |
| ParseScript.MappingRejected | src/utils/ParseScript.js:55-58 | Take a line whose first `<>` is at `i`, with the next `<>` or the end at `j`. It throws "Invalid property mapping" exactly when nothing precedes `i` or nothing lies between `i` and `j`. So `a(1)<>` and `a(1)<><>b(2)` are both rejected. |
| ParseScript.MappingFields | src/utils/ParseScript.js:55-73 | When both halves are non-empty, the line reads as a mapping exactly when each half holds a `(`. Otherwise it throws the TypeError. The property side is read from the text before the first `<>`, and the audio side from the text between it and the next `<>` or the end. |
| ParseScript.Step | src/utils/ParseScript.js:16-75 | Blank lines change nothing. An opener whose type starts with `cube` makes a fresh default object named by the opener the open one. Inside a block, a body line holding a valid mapping appends exactly that mapping to the open object. One line adds at most one object, at the end, and only a closer does so. That closer emits exactly the open object and clears the cursor. Only an opener, or a body line inside a block, can throw. Default properties are preserved. |
| ParseScript.Fold | src/utils/ParseScript.js:16-75 | The objects emitted so far are only ever extended, never reordered or dropped. The defaults invariant holds across the whole `forEach`. |
| ParseScript.FoldConcat | src/utils/ParseScript.js:16-75 | Reading two runs of lines reads the first run. If that fails, the result is its error. Otherwise reading continues from the state where the first run stopped. |
| ParseScript.FoldFailsAt | src/utils/ParseScript.js:16-75 | The `forEach` stops at the first line whose step throws, with that step's error. |
| ParseScript.FailingLineAbortsParse | src/utils/ParseScript.js:12-79 | Atomicity. When line `k` throws after the earlier lines succeeded, the whole parse fails with that line's error. No partial list of objects is returned. |
| ParseScript.OnlyClosersEmit | src/utils/ParseScript.js:44-51 | A run of lines emits no more objects than it has `}` lines. With no `}` it emits nothing, so a block left open at the end of the script is lost. |
| ParseScript.ReopeningDiscardsOpenObject | src/utils/ParseScript.js:23-41 | An opener whose type starts with `cube`, read while a block is open, replaces the unfinished object with a fresh one. The emitted objects are unchanged. |
| ParseScript.CloserEmitsOpenObject | src/utils/ParseScript.js:45-50 | A `}` appends the open object and clears the cursor. With no open block it does nothing. |
| ParseScript.StrayLineIgnored | src/utils/ParseScript.js:53-74 | Outside a block, a line that is neither an opener nor a closer is ignored, even if it is not a valid mapping. |
| ParseScript.OpenerTypeChecked | src/utils/ParseScript.js:24-27 | An opener throws exactly when its type does not start with `cube`. The error names the type. |
| ParseScript.BadMappingInBlockThrows | src/utils/ParseScript.js:54-58 | Inside a block, a line that is not a valid mapping aborts with that mapping's error. |
| ParseScript.OpenerDetected | src/utils/ParseScript.js:22 | A line opens an object exactly when its trimmed text holds both a `:` and a `{`. |
| ParseScript.OpenerFields | src/utils/ParseScript.js:22-23 | For an opener line, the name is the trimmed text before the first `:`. The type is the trimmed text after it, up to the second `:` or the end of the line; anything after a second `:` is dropped. |
| ParseScript.OpenerLine | src/utils/ParseScript.js:23-24 | A line `name:kind{` is an opener with the trimmed name and the type `kind{`. |
| ParseScript.BoundsRoundTrip | src/utils/ParseScript.js:62 | `lo,hi)` with its first `)` removed, split at `,`, gives back `lo` and `hi`. `lo)` gives `lo` and no second bound. |
| ParseScript.SideRoundTrip | src/utils/ParseScript.js:61-63 | `name(bounds)` reads back as the trimmed name and its bounds. |
| ParseScript.MappingRoundTrip | src/utils/ParseScript.js:55-73 | Round trip: a well-formed mapping written as `p(r)<>a(ar)` reads back as the same mapping. |
| ParseScript.MappingLineClassify | src/utils/ParseScript.js:16-58 | The editor's text for a mapping of plain tokens, behind any white-space indent, is a body line that holds exactly that mapping. |
| ParseScript.MappingLineAppends | src/utils/ParseScript.js:54-73 | Inside a block, the editor's text for a mapping of plain tokens, behind any indent, appends exactly that mapping after the earlier ones. |
| ParseScript.BodyLineAppends | src/utils/ParseScript.js:54-73 | Inside a block, any line (neither `}` nor holding both `:` and `{`) whose first `<>` has non-empty text on both sides is a body line. It appends one mapping exactly when both sides hold `(`, and that mapping's fields are what `ParseSide` reads from the two sides. Otherwise it throws `RangeUndefined`. |
| ParseScript.OpenerLineOpens | src/utils/ParseScript.js:20-33 | Any line holding `:` and `{` opens a fresh default object named by its trimmed first `:`-piece when the trimmed second piece starts with `cube`. This holds whether or not a block was open. Otherwise it throws `UnsupportedObjectType` naming that piece. |
| ParseScript.BlockFold | src/utils/ParseScript.js:23-51 | A block's lines emit exactly its object, whatever the cursor held before. |
| ParseScript.ScriptFold | src/utils/ParseScript.js:16-75 | Outside any block, a run of blocks emits their objects in order and ends with no block open. |
| ParseScript.FormatScriptLines | src/utils/ParseScript.js:13-17 | A formatted script, trimmed and split at line feeds, gives back the lines of its blocks. |
| ParseScript.FormatScriptRoundTrip | src/utils/ParseScript.js:4-82 | Round trip: any non-empty list of default objects with non-empty plain-token names and plain-token mappings reads back, in order, from its script text. A plain token has no `:`, `{`, `}`, `<`, `>`, `(`, `)`, `,` or line feed, and names and properties carry no outer white space. |
| ParseScript.EditorDefaultScriptParses | src/components/Editor/LiveCodeEditor.js:5 | The editor's initial script yields one cube `Object1` with one mapping: `rotation.z` over 0..90 driven by `lowPower` over 10..100. |
| ParseScriptComponent.GetGeometry | src/components/Editor/ParseScriptComponent.js:40-49 | The geometry is a sphere exactly when the kind is the string `sphere`. `cube`, and every other value, gives the box. |
| ParseScriptComponent.Colour | src/components/Editor/ParseScriptComponent.js:16-18 | A string colour becomes a number or NaN, never a string. A falsy non-string colour becomes green. Any other colour is passed through unchanged. |
| ParseScriptComponent.NormaliseEntry | src/components/Editor/ParseScriptComponent.js:15-29 | Each field of the normalised object comes from the record. Falsy transforms become the zero or unit vectors, and falsy mappings become the empty array. The layer is null exactly when the record's layer is null or missing. |
| ParseScriptComponent.Message | src/components/Editor/ParseScriptComponent.js:33-35 | Every rethrown message starts with "Error parsing script: ". The message of a JSON syntax error ends with the parser's own message. |
| ParseScriptComponent.NormaliseAll | src/components/Editor/ParseScriptComponent.js:14-32 | The `forEach` succeeds exactly when no element is null or undefined. It then yields one normalised entry per element, in order. Otherwise it fails at the first such element. |
| ParseScriptComponent.ParseDocument | src/components/Editor/ParseScriptComponent.js:13-36 | A decoded value that is not an array is rejected. An array is accepted exactly when no element is nullish, and then the elements are normalised in order. A rejection names the first nullish element, and all earlier elements are fine. |
| ParseScriptComponent.ParseScript | src/components/Editor/ParseScriptComponent.js:10-37 | A script is accepted exactly when it decodes to an array with no null or undefined element. It then yields one normalised entry per element, in order. A syntax error, a non-array, and the first nullish element are each reported as such. |
| ParseScriptComponent.NormaliseStable | src/components/Editor/ParseScriptComponent.js:15-29 | Normalising is stable: an entry written back as a record normalises to itself exactly when its colour is truthy. A zero or NaN colour is replaced by green. |
| ParseScriptComponent.ColourOfGreenString | src/components/Editor/ParseScriptComponent.js:17 | The string `00ff00` is read in base 16 as 65280. |
| ParseScriptComponent.ColourOfZeroString | src/components/Editor/ParseScriptComponent.js:17 | The string `0` gives black. The string branch has no `||` default. |
| ParseScriptComponent.ColourOfEmptyString | src/components/Editor/ParseScriptComponent.js:17 | The empty string gives NaN, not the default colour. |
| ParseScriptComponent.ColourOfNonStrings | src/components/Editor/ParseScriptComponent.js:17 | A missing colour and the number 0 both become green. Other numbers are kept. |
| ParseScriptComponent.ColourOfHexString | src/components/Editor/ParseScriptComponent.js:17 | The hexadecimal spelling of any `n`, with or without `0x`, gives the colour `n`. |
| ParseScriptComponent.OnScriptChange | src/components/Editor/ParseScriptComponent.js:52-66 | An empty script changes nothing. On a successful parse, the objects are replaced, push is enabled and the log shows them. On a failed parse, the previous objects are kept, push is disabled, and the log starts with "Error: Error parsing script: ". |
| ParseScriptComponent.ErrorLog | src/components/Editor/ParseScriptComponent.js:62 | The log text of a failure always starts with "Error: Error parsing script: ". |
| ParseScriptComponent.OnScriptChangeIdempotent | src/components/Editor/ParseScriptComponent.js:52-66 | Running the effect again on the same script changes nothing further. |
| ParseScriptComponent.RunKeepsLastSuccess | src/components/Editor/ParseScriptComponent.js:52-66 | After any sequence of scripts, the component holds the objects of the latest script that parsed. Push is enabled exactly when the latest non-empty script parsed. |
| ParseScriptComponent.MountedRun | src/components/Editor/ParseScriptComponent.js:5-66 | From the mount state (empty log, no objects, push disabled), the component holds the objects of the latest script that parsed, or none. Push is enabled exactly when the latest non-empty script parsed. Scripts that are all empty leave the mount state unchanged. |
| JsNumbers.ParseIntHex | src/components/Editor/ParseScriptComponent.js:17 | `parseInt(_, 16)` always yields a number or NaN, never another value. |
| JsNumbers.ParseIntHexRoundTrip | src/components/Editor/ParseScriptComponent.js:17 | `parseInt(_, 16)` reads back the hexadecimal spelling of every non-negative integer, with or without `0x`. |
| JsNumbers.ParseIntHexSigned | src/components/Editor/ParseScriptComponent.js:17 | Leading white space and a minus sign are accepted: ` -FF` reads as -255. |
| JsNumbers.ParseIntHexStopsAtNonDigit | src/components/Editor/ParseScriptComponent.js:17 | Reading stops at the first non-digit: `ffzz` reads as 255. |
| JsNumbers.ParseIntHexWithoutDigits | src/components/Editor/ParseScriptComponent.js:17 | A string with no leading hexadecimal digit, including the empty string, gives NaN. |
| JsStrings.Trim | src/utils/ParseScript.js:13-17 | The result is a slice of the input with only white space before and after it, and it has no white space at either end. So exactly the leading and trailing white space is removed. It is empty exactly when the input is all white space. |
| JsStrings.TrimIdempotent | src/utils/ParseScript.js:13-17 | Trimming a trimmed line changes nothing, so trimming the script and then each line is consistent. |
| JsStrings.JoinSplit | src/utils/ParseScript.js:13 | Splitting and rejoining with the same separator gives back the text. No piece holds the separator. |
| JsStrings.Split | src/utils/ParseScript.js:13-64 | A split has at least one piece, and at least two exactly when the separator occurs. |
| JsStrings.SplitSecondPiece | src/utils/ParseScript.js:55 | For a separator of any length, the first piece ends at the first occurrence. The second piece runs from just after it to the next occurrence or the end. |
| JsStrings.SplitFirstTwo | src/utils/ParseScript.js:23 | The first two pieces of a split run up to the first separator, and from there to the second separator or the end. |
| JsStrings.SplitJoin | src/utils/ParseScript.js:24 | Take pieces that do not contain the separator's first character. Splitting their join gives back the pieces. |
| JsStrings.RemoveFirst | src/utils/ParseScript.js:62-64 | `replace(')', '')` leaves the text unchanged when there is no `)`. Otherwise it removes the first `)` and keeps everything before and after it. |
| JsStrings.RemoveFirstAt | src/utils/ParseScript.js:62-64 | If the first `)` is at `i`, the result is the text before `i` followed by the text after it. |
| AudioHandler.Features | src/utils/AudioHandler.js:87-99 | Each feature is the mean of its bins: `averageVolume` times the number of bins is their sum, and likewise each band's power times its size is that band's sum. |
| AudioHandler.BandsPartition | src/utils/AudioHandler.js:93-95 | The three slices are contiguous and in order, and cover every bin exactly once. None is empty when there are at least three bins. |
| AudioHandler.BandSizes | src/utils/AudioHandler.js:48-49 | With `fftSize` 1024 the analyser has 512 bins. The truncated slices hold 170, 171 and 171 bins. |
| AudioHandler.AverageIsWeightedMean | src/utils/AudioHandler.js:87-99 | `averageVolume` is the mean of the three band powers, weighted by the number of bins in each band. |
| AudioHandler.FeaturesInByteRange | src/utils/AudioHandler.js:88-99 | For a byte spectrum, every feature lies in [0, 255]. |
| AudioHandler.ProcessAudio | src/utils/AudioHandler.js:72-111 | With no analyser, or while not processing, nothing is published. Otherwise every listener receives, in registration order, the same frame of features, and every value lies in [0, 255]. |
| AudioHandler.StopProcessing | src/utils/AudioHandler.js:113-119 | Stopping clears the processing flag and keeps the analyser, the stream and the listeners. |
| AudioHandler.NothingAfterStop | src/utils/AudioHandler.js:73 | After `stopProcessing`, no callback publishes anything. |
| AudioHandler.StopIdempotent | src/utils/AudioHandler.js:113-119 | Stopping twice is the same as stopping once. |
| AudioHandler.NewHandler | src/utils/AudioHandler.js:4-12 | A new handler has no analyser and no stream, is not processing and has no listeners. |
| AudioHandler.AddListener | src/utils/AudioHandler.js:121-123 | The listener is appended after the existing ones, which are kept as they were. |
| AudioHandler.RemoveListener | src/utils/AudioHandler.js:125-127 | Removal never lengthens the list. Its content is stated by the next two rows. |
| AudioHandler.RemoveListenerCounts | src/utils/AudioHandler.js:125-127 | Removal drops every registration of the listener and keeps every other listener as often as it was registered. |
| AudioHandler.RemoveAbsent | src/utils/AudioHandler.js:125-127 | Removing a listener that is not registered changes nothing. |
| AudioHandler.RemoveConcat | src/utils/AudioHandler.js:125-127 | Removal keeps the order of the others: it distributes over concatenation. |
| AudioHandler.RemoveAfterAdd | src/utils/AudioHandler.js:121-127 | Removing a listener just added also removes any earlier registration of it. A listener added once is removed without a trace. |
| AudioHandler.RemoveOtherAfterAdd | src/utils/AudioHandler.js:121-127 | Removing one listener does not affect a different listener just added. |
| AudioHandler.RemoveCommutes | src/utils/AudioHandler.js:125-127 | Removal is idempotent, and the order of two removals does not matter. |
| AudioHandler.NotifyListeners | src/utils/AudioHandler.js:129-131 | Each registered listener is called once, in registration order, with the same data. |
| AudioHandler.NotifyAfterAdd | src/utils/AudioHandler.js:121-131 | A listener added last is called last. |
| AudioHandler.NotifySkipsRemoved | src/utils/AudioHandler.js:125-131 | A removed listener receives nothing. |
| Averages.SumFromFront | src/utils/AudioHandler.js:88-99 | The left-to-right `reduce` sum equals the sum taken from the front: the first value plus the sum of the rest. |
| Averages.Mean | src/utils/AudioHandler.js:89-99 | The mean times the number of values is their sum. |
| Averages.MeanBounds | src/utils/AudioHandler.js:88-99 | The mean of values in [0, hi] lies in [0, hi]. |
| Averages.SumConcat | src/utils/AudioHandler.js:88 | The `reduce` sum of a concatenation is the sum of the parts. |

## Left out

- `JSON.parse` is not modelled. The state update takes it as a parameter that
  yields the decoded value or the message of its `SyntaxError`.
- `JSON.stringify(parsedObjects, null, 2)` for the log is not spelled out. The
  log records the objects it would print.
- three.js is left out: `BoxGeometry`, `SphereGeometry` and
  `MeshBasicMaterial`. Geometry is a two-valued tag. The colour is the value
  handed to the material, not a three.js `Color`.
- `console.log` and `console.error` calls are left out: they are I/O with no
  effect on results.
- `startProcessing` is left out. It is asynchronous device I/O:
  `getUserMedia`, `AudioContext`, node wiring, and error logging. Its effects
  appear only as the handler's `hasAnalyser`, `hasStream` and `isProcessing`
  flags.
- `getByteFrequencyData` is an input: the spectrum is the `bins` argument of
  `ProcessAudio`. The raw channel data read in `processAudio` is never used, so
  it is left out.
- Stopping the stream's tracks in `stopProcessing` is not modelled, because it
  is device I/O.
- `handlePushObjects` and the component's rendering are left out. They only
  pass the objects on and draw the log box.
- `Number(...)` on range tokens is not applied. Mappings keep the tokens as
  written, and a missing second token is `None` (JavaScript `undefined`). Real
  number syntax is outside the model.
- ParseScript.Classify: states the classification but not, in its contract,
  which mapping a body line carries or which fields an opener has.
  ParseScript.OpenerFields states the opener fields. ParseScript.MappingRejected,
  ParseScript.MappingFields and ParseScript.SideFields state the mapping.
- Floating-point division is not modelled. The features are exact real
  quotients, whereas `sum / length` in the source is IEEE-754 division. Dividing
  by 170 or 171 rounds, so the published values are the doubles nearest the
  model's. AudioHandler.Features, AudioHandler.AverageIsWeightedMean and
  Averages.Mean hold for the program only up to that rounding. The bounds of
  Averages.MeanBounds and AudioHandler.FeaturesInByteRange survive it, because
  rounding is monotone and 0 and 255 are doubles. The integer sums themselves
  stay exact, because 512 bytes sum to far below 2^53.
- AudioHandler.ProcessAudio: requires exactly 512 bins, as the handler always
  allocates. With fewer than three bins a band would be empty and its mean NaN,
  which is not modelled.
- AudioHandler.RemoveListener: its own contract only bounds the length. Its
  meaning is stated by AudioHandler.RemoveListenerCounts and
  AudioHandler.RemoveAbsent, which give the multiset, and by
  AudioHandler.RemoveConcat, which gives the order.
- Exceptions thrown by a listener are not modelled. The source does not catch
  them, so one would end `notifyListeners`. The model's listeners are values
  that cannot throw.
- `parseInt` results above 2^53 lose precision in JavaScript. The model keeps
  them exact, and it does not distinguish -0 from 0.
- Infinity is not modelled. `JSON.parse` turns a literal beyond the double range,
  such as `1e400`, into Infinity, and `parseInt` overflows to Infinity on about 256 or
  more hex digits, whereas JsNumbers.ParseIntHex returns the exact value.
  Infinity is truthy, so the `||` defaults keep it as they keep any large
  number.
- JavaScript strings are UTF-16 code units; the model's strings are sequences
  of Unicode scalar values. Characters outside the Basic Multilingual Plane are
  one character here but two code units in JavaScript.
- The component's `script` prop is taken to be a string.

=== FILE: audio_handler.dfy ===
/** The per-callback feature reduction and the listener registry of
    `AudioHandler` (src/utils/AudioHandler.js). The analyser's byte
    spectrum is an input: an `AnalyserNode` with `fftSize` 1024 exposes
    `frequencyBinCount` = 512 bins, each a byte (section 1.8 of the W3C
    Web Audio API). */
module AudioHandler {
  import opened Averages

  type Byte = x: int | 0 <= x < 256

  const FftSize: nat := 1024

  /** Half the FFT size, the length of the handler's `dataArray`. */
  const FrequencyBinCount: nat := FftSize / 2

  /** The object handed to every listener. */
  datatype Frame = Frame(averageVolume: real, lowPower: real, midPower: real, highPower: real)

  /** `slice` truncates its fractional bounds `n / 3` and `2 * n / 3`. */
  function LowEnd(bins: seq<int>): seq<int> {
    bins[..|bins| / 3]
  }

  function MidEnd(bins: seq<int>): seq<int> {
    bins[|bins| / 3..2 * |bins| / 3]
  }

  function HighEnd(bins: seq<int>): seq<int> {
    bins[2 * |bins| / 3..]
  }

  /** The four features of one spectrum: the mean of all bins and of each
      third. With fewer than three bins a third would be empty and its mean
      NaN; the handler always has 512. */
  function Features(bins: seq<int>): (f: Frame)
    requires |bins| >= 3
    ensures f.averageVolume * |bins| as real == Sum(bins) as real
    ensures f.lowPower * |LowEnd(bins)| as real == Sum(LowEnd(bins)) as real
    ensures f.midPower * |MidEnd(bins)| as real == Sum(MidEnd(bins)) as real
    ensures f.highPower * |HighEnd(bins)| as real == Sum(HighEnd(bins)) as real
  {
    BandsNonEmpty(bins);
    MeansOf(bins, LowEnd(bins), MidEnd(bins), HighEnd(bins))
  }

  /** The frame of the means of a spectrum and of its three bands. */
  function MeansOf(all: seq<int>, low: seq<int>, mid: seq<int>, high: seq<int>): (f: Frame)
    requires |all| > 0 && |low| > 0 && |mid| > 0 && |high| > 0
    ensures f.averageVolume * |all| as real == Sum(all) as real
    ensures f.lowPower * |low| as real == Sum(low) as real
    ensures f.midPower * |mid| as real == Sum(mid) as real
    ensures f.highPower * |high| as real == Sum(high) as real
  {
    Frame(Mean(all), Mean(low), Mean(mid), Mean(high))
  }

  /** The three bands are contiguous, in order, and cover every bin once;
      none is empty when there are at least three bins. */
  lemma BandsPartition(bins: seq<int>)
    ensures LowEnd(bins) + MidEnd(bins) + HighEnd(bins) == bins
    ensures |LowEnd(bins)| + |MidEnd(bins)| + |HighEnd(bins)| == |bins|
    ensures |bins| >= 3 ==> |LowEnd(bins)| > 0 && |MidEnd(bins)| > 0 && |HighEnd(bins)| > 0
  {
    var n := |bins|;
    assert bins[..n / 3] + bins[n / 3..2 * n / 3] == bins[..2 * n / 3];
    assert bins[..2 * n / 3] + bins[2 * n / 3..] == bins;
  }

  lemma BandsNonEmpty(bins: seq<int>)
    requires |bins| >= 3
    ensures |LowEnd(bins)| > 0 && |MidEnd(bins)| > 0 && |HighEnd(bins)| > 0
  {
    BandsPartition(bins);
  }

  /** With the handler's 512 bins the bands hold 170, 171 and 171 bins. */
  lemma BandSizes(bins: seq<int>)
    requires |bins| == FrequencyBinCount
    ensures |LowEnd(bins)| == 170 && |MidEnd(bins)| == 171 && |HighEnd(bins)| == 171
  {
  }

  /** The total of the bins is the total of the three bands. */
  lemma SumOfBands(bins: seq<int>)
    ensures Sum(bins) == Sum(LowEnd(bins)) + Sum(MidEnd(bins)) + Sum(HighEnd(bins))
  {
    BandsPartition(bins);
    SumConcat(LowEnd(bins), MidEnd(bins));
    SumConcat(LowEnd(bins) + MidEnd(bins), HighEnd(bins));
  }

  /** `averageVolume` is the mean of the three band powers weighted by
      the number of bins in each band. */
  lemma AverageIsWeightedMean(bins: seq<int>)
    requires |bins| >= 3
    ensures var f := Features(bins);
      f.averageVolume * |bins| as real ==
        f.lowPower * |LowEnd(bins)| as real
        + f.midPower * |MidEnd(bins)| as real
        + f.highPower * |HighEnd(bins)| as real
  {
    SumOfBands(bins);
  }

  predicate InByteRange(f: Frame) {
    && 0.0 <= f.averageVolume <= 255.0
    && 0.0 <= f.lowPower <= 255.0
    && 0.0 <= f.midPower <= 255.0
    && 0.0 <= f.highPower <= 255.0
  }

  /** Every feature of a byte spectrum lies in [0, 255]. */
  lemma FeaturesInByteRange(bins: seq<int>)
    requires |bins| >= 3 && InRange(bins, 0, 255)
    ensures InByteRange(Features(bins))
  {
    BandsPartition(bins);
    MeanBounds(bins, 255);
    MeanBounds(LowEnd(bins), 255);
    MeanBounds(MidEnd(bins), 255);
    MeanBounds(HighEnd(bins), 255);
  }

  /** The handler's fields that the modelled methods read or write. The
      analyser and the stream are only tested for presence; `dataArray` is
      the `bins` argument of `ProcessAudio`. */
  datatype Handler<L> = Handler(hasAnalyser: bool, hasStream: bool, isProcessing: bool, listeners: seq<L>)

  /** The constructor's state: nothing connected, not processing, no listeners. */
  function NewHandler<L>(): (h: Handler<L>)
    ensures !h.hasAnalyser && !h.hasStream && !h.isProcessing && h.listeners == []
  {
    Handler(false, false, false, [])
  }

  /** `addListener`: appended at the end. */
  function AddListener<L>(ls: seq<L>, l: L): (r: seq<L>)
    ensures |r| == |ls| + 1 && r[..|ls|] == ls && r[|ls|] == l
  {
    ls + [l]
  }

  /** `removeListener`: `filter(x => x !== l)`. */
  function RemoveListener<L(==)>(ls: seq<L>, l: L): (r: seq<L>)
    ensures |r| <= |ls|
  {
    if ls == [] then []
    else
      assert ls == [ls[0]] + ls[1..];
      (if ls[0] == l then [] else [ls[0]]) + RemoveListener(ls[1..], l)
  }

  /** Removal drops every registration of `l` and keeps every other
      listener as often as it was registered. */
  lemma {:induction false} RemoveListenerCounts<L>(ls: seq<L>, l: L)
    ensures multiset(RemoveListener(ls, l)) == multiset(ls)[l := 0]
    ensures l !in RemoveListener(ls, l)
    decreases |ls|
  {
    if ls != [] {
      RemoveListenerCounts(ls[1..], l);
      assert ls == [ls[0]] + ls[1..];
      assert multiset(ls) == multiset{ls[0]} + multiset(ls[1..]);
    }
    assert multiset(RemoveListener(ls, l))[l] == 0;
  }

  /** Removing a listener that is not registered changes nothing. */
  lemma {:induction false} RemoveAbsent<L>(ls: seq<L>, l: L)
    requires l !in ls
    ensures RemoveListener(ls, l) == ls
    decreases |ls|
  {
    if ls != [] {
      assert ls[0] != l;
      RemoveAbsent(ls[1..], l);
      assert ls == [ls[0]] + ls[1..];
    }
  }

  /** `notifyListeners(data)`: one call per registered listener, in
      registration order, each with the same frame. */
  function NotifyListeners<L>(ls: seq<L>, data: Frame): (calls: seq<(L, Frame)>)
    ensures |calls| == |ls|
    ensures forall i :: 0 <= i < |ls| ==> calls[i] == (ls[i], data)
  {
    if ls == [] then [] else [(ls[0], data)] + NotifyListeners(ls[1..], data)
  }

  /** `processAudio`: with no analyser or while not processing, nothing is
      published; otherwise every listener receives the features of the
      current spectrum. */
  function ProcessAudio<L>(h: Handler<L>, bins: seq<Byte>): (calls: seq<(L, Frame)>)
    requires |bins| == FrequencyBinCount
    ensures !h.hasAnalyser || !h.isProcessing ==> calls == []
    ensures h.hasAnalyser && h.isProcessing ==>
      && |calls| == |h.listeners|
      && forall i :: 0 <= i < |calls| ==> calls[i] == (h.listeners[i], Features(bins))
    ensures forall i :: 0 <= i < |calls| ==> InByteRange(calls[i].1)
  {
    if !h.hasAnalyser || !h.isProcessing then []
    else
      FeaturesInByteRange(bins);
      NotifyListeners(h.listeners, Features(bins))
  }

  /** `stopProcessing`: the stream's tracks are stopped (not modelled) and
      the processing flag is cleared; the stream and listeners are kept. */
  function StopProcessing<L>(h: Handler<L>): (r: Handler<L>)
    ensures !r.isProcessing
    ensures r.hasAnalyser == h.hasAnalyser && r.hasStream == h.hasStream && r.listeners == h.listeners
  {
    h.(isProcessing := false)
  }

  /** Stopping twice is stopping once. */
  lemma StopIdempotent<L>(h: Handler<L>)
    ensures StopProcessing(StopProcessing(h)) == StopProcessing(h)
  {
  }

  /** After `stopProcessing` no callback publishes anything. */
  lemma NothingAfterStop<L>(h: Handler<L>, bins: seq<Byte>)
    requires |bins| == FrequencyBinCount
    ensures ProcessAudio(StopProcessing(h), bins) == []
  {
  }

  /** Removing keeps the other listeners in their order: it distributes
      over concatenation. */
  lemma {:induction false} RemoveConcat<L>(a: seq<L>, b: seq<L>, l: L)
    ensures RemoveListener(a + b, l) == RemoveListener(a, l) + RemoveListener(b, l)
    decreases |a|
  {
    if a == [] {
      assert a + b == b;
    } else {
      assert (a + b)[0] == a[0] && (a + b)[1..] == a[1..] + b;
      RemoveConcat(a[1..], b, l);
    }
  }

  /** Removing a listener just added removes every earlier registration
      of it too; a listener added once is removed without a trace. */
  lemma RemoveAfterAdd<L>(ls: seq<L>, l: L)
    ensures RemoveListener(AddListener(ls, l), l) == RemoveListener(ls, l)
    ensures l !in ls ==> RemoveListener(AddListener(ls, l), l) == ls
  {
    RemoveConcat(ls, [l], l);
    assert RemoveListener([l], l) == [];
    if l !in ls {
      RemoveAbsent(ls, l);
    }
  }

  /** Removing one listener does not affect a different one just added. */
  lemma RemoveOtherAfterAdd<L>(ls: seq<L>, l: L, other: L)
    requires other != l
    ensures RemoveListener(AddListener(ls, l), other) == AddListener(RemoveListener(ls, other), l)
  {
    RemoveConcat(ls, [l], other);
    assert RemoveListener([l], other) == [l];
  }

  /** Removal is idempotent and the order of two removals does not matter. */
  lemma {:induction false} RemoveCommutes<L>(ls: seq<L>, a: L, b: L)
    ensures RemoveListener(RemoveListener(ls, a), a) == RemoveListener(ls, a)
    ensures RemoveListener(RemoveListener(ls, a), b) == RemoveListener(RemoveListener(ls, b), a)
    decreases |ls|
  {
    RemoveListenerCounts(ls, a);
    RemoveAbsent(RemoveListener(ls, a), a);
    if ls != [] {
      var rest := ls[1..];
      RemoveCommutes(rest, a, b);
      var head := if ls[0] == a then [] else [ls[0]];
      RemoveConcat(head, RemoveListener(rest, a), b);
      var head' := if ls[0] == b then [] else [ls[0]];
      RemoveConcat(head', RemoveListener(rest, b), a);
    }
  }

  /** A listener added last is called last, after the earlier ones. */
  lemma NotifyAfterAdd<L>(ls: seq<L>, l: L, data: Frame)
    ensures NotifyListeners(AddListener(ls, l), data) == NotifyListeners(ls, data) + [(l, data)]
  {
  }

  /** A removed listener receives nothing. */
  lemma NotifySkipsRemoved<L>(ls: seq<L>, l: L, data: Frame)
    ensures forall i :: 0 <= i < |NotifyListeners(RemoveListener(ls, l), data)| ==>
      NotifyListeners(RemoveListener(ls, l), data)[i].0 != l
  {
    var r := RemoveListener(ls, l);
    RemoveListenerCounts(ls, l);
    forall i | 0 <= i < |r|
      ensures r[i] != l
    {
      assert r[i] in r;
    }
  }
}

=== FILE: averages.dfy ===
/** Sums and means of integer sequences, as `reduce((a, b) => a + b, 0)`
    and a division by the length compute them. */
module Averages {

  /** The left fold `xs.reduce((a, b) => a + b, 0)`. */
  function Sum(xs: seq<int>): int
    decreases |xs|
  {
    if xs == [] then 0 else Sum(xs[..|xs| - 1]) + xs[|xs| - 1]
  }

  /** Reducing from the left adds up the same total as adding from the front. */
  lemma {:induction false} SumFromFront(xs: seq<int>)
    ensures Sum(xs) == SumFrom(xs)
    decreases |xs|
  {
    if xs != [] {
      var init := xs[..|xs| - 1];
      SumFromFront(init);
      SumFromSnoc(init, xs[|xs| - 1]);
      assert init + [xs[|xs| - 1]] == xs;
    }
  }

  /** The same total added up from the front: the first element plus the
      sum of the rest. */
  function SumFrom(xs: seq<int>): int {
    if xs == [] then 0 else xs[0] + SumFrom(xs[1..])
  }

  /** Adding a last element to a front-to-back sum. */
  lemma {:induction false} SumFromSnoc(xs: seq<int>, x: int)
    ensures SumFrom(xs + [x]) == SumFrom(xs) + x
  {
    if xs != [] {
      assert (xs + [x])[1..] == xs[1..] + [x];
      SumFromSnoc(xs[1..], x);
    }
  }

  /** The arithmetic mean; integer sums divided exactly, as reals. */
  function Mean(xs: seq<int>): (m: real)
    requires |xs| > 0
    ensures m * |xs| as real == Sum(xs) as real
  {
    Sum(xs) as real / |xs| as real
  }

  predicate InRange(xs: seq<int>, lo: int, hi: int) {
    forall i :: 0 <= i < |xs| ==> lo <= xs[i] <= hi
  }

  /** Summing a concatenation sums the parts. */
  lemma {:induction false} SumConcat(a: seq<int>, b: seq<int>)
    ensures Sum(a + b) == Sum(a) + Sum(b)
    decreases |b|
  {
    if b == [] {
      assert a + b == a;
    } else {
      var b' := b[..|b| - 1];
      assert (a + b)[..|a + b| - 1] == a + b';
      SumConcat(a, b');
    }
  }

  /** A sum of values in [0, hi] lies in [0, hi * length]. */
  lemma {:induction false} SumBounds(xs: seq<int>, hi: int)
    requires hi >= 0 && InRange(xs, 0, hi)
    ensures 0 <= Sum(xs) <= hi * |xs|
    decreases |xs|
  {
    if xs != [] {
      SumBounds(xs[..|xs| - 1], hi);
    }
  }

  /** The mean of values in [0, hi] lies in [0, hi]. */
  lemma MeanBounds(xs: seq<int>, hi: int)
    requires |xs| > 0 && hi >= 0 && InRange(xs, 0, hi)
    ensures 0.0 <= Mean(xs) <= hi as real
  {
    SumBounds(xs, hi);
    var m, n, h := Mean(xs), |xs| as real, hi as real;
    assert m * n <= h * n;
  }

}

=== FILE: js_numbers.dfy ===
/** `parseInt(s, 16)` (section 19.2.5 of ECMA-262), the conversion the
    structured-document normaliser applies to a colour written as a string. */
module JsNumbers {
  import opened JsValues
  import opened JsStrings

  predicate IsHexDigit(c: char) {
    ('0' <= c <= '9') || ('a' <= c <= 'f') || ('A' <= c <= 'F')
  }

  predicate AllHexDigits(s: string) {
    forall i :: 0 <= i < |s| ==> IsHexDigit(s[i])
  }

  function HexDigitValue(c: char): (d: nat)
    requires IsHexDigit(c)
    ensures d < 16
  {
    if '0' <= c <= '9' then c as int - '0' as int
    else if 'a' <= c <= 'f' then c as int - 'a' as int + 10
    else c as int - 'A' as int + 10
  }

  /** The number a string of hexadecimal digits denotes, most significant first. */
  function HexValue(ds: string): nat
    requires AllHexDigits(ds)
  {
    if ds == [] then 0 else HexValue(ds[..|ds| - 1]) * 16 + HexDigitValue(ds[|ds| - 1])
  }

  /** The longest prefix made of hexadecimal digits. */
  function HexPrefix(s: string): (p: string)
    ensures |p| <= |s| && p == s[..|p|]
    ensures AllHexDigits(p)
    ensures |p| < |s| ==> !IsHexDigit(s[|p|])
  {
    if |s| > 0 && IsHexDigit(s[0]) then
      var rest := HexPrefix(s[1..]);
      assert s[..1 + |rest|] == [s[0]] + rest;
      [s[0]] + rest
    else
      []
  }

  /** `parseInt(s, 16)`: skip leading white space, take an optional sign and
      an optional `0x`/`0X` prefix, then read the longest run of hexadecimal
      digits; no digit at all gives NaN. The result is exact (no rounding
      above 2^53). */
  function ParseIntHex(s: string): (r: JsValue)
    ensures r.Num? || r == NaN
  {
    var t := TrimStart(s);
    var negative := |t| > 0 && t[0] == '-';
    var u := if |t| > 0 && (t[0] == '-' || t[0] == '+') then t[1..] else t;
    var v := if StartsWith(u, "0x") || StartsWith(u, "0X") then u[2..] else u;
    var digits := HexPrefix(v);
    if digits == [] then NaN
    else if negative then Num(-(HexValue(digits) as real))
    else Num(HexValue(digits) as real)
  }

  function HexChar(d: nat): (c: char)
    requires d < 16
    ensures IsHexDigit(c) && HexDigitValue(c) == d
  {
    if d < 10 then ('0' as int + d) as char else ('a' as int + d - 10) as char
  }

  /** The canonical lower-case hexadecimal spelling of `n`. */
  function HexDigitsOf(n: nat): (s: string)
    ensures |s| >= 1 && AllHexDigits(s)
  {
    if n < 16 then [HexChar(n)] else HexDigitsOf(n / 16) + [HexChar(n % 16)]
  }

  lemma {:induction false} HexValueOfDigits(n: nat)
    ensures HexValue(HexDigitsOf(n)) == n
  {
    var s := HexDigitsOf(n);
    if n >= 16 {
      HexValueOfDigits(n / 16);
      assert s[..|s| - 1] == HexDigitsOf(n / 16);
    }
  }

  lemma HexPrefixOfDigits(ds: string)
    requires AllHexDigits(ds)
    ensures HexPrefix(ds) == ds
  {
  }

  /** A string of hexadecimal digits is read completely. */
  lemma ParseIntHexOfDigits(ds: string)
    requires ds != [] && AllHexDigits(ds)
    requires !StartsWith(ds, "0x") && !StartsWith(ds, "0X")
    ensures ParseIntHex(ds) == Num(HexValue(ds) as real)
  {
    SkipWhiteSpaceUnique(ds, 0);
    assert TrimStart(ds) == ds;
    HexPrefixOfDigits(ds);
  }

  /** After a `0x` prefix the digits are read completely. */
  lemma ParseIntHexOfPrefixed(ds: string)
    requires ds != [] && AllHexDigits(ds)
    ensures ParseIntHex("0x" + ds) == Num(HexValue(ds) as real)
  {
    var p := "0x" + ds;
    SkipWhiteSpaceUnique(p, 0);
    assert TrimStart(p) == p;
    assert StartsWith(p, "0x") && p[2..] == ds;
    HexPrefixOfDigits(ds);
  }

  /** Round trip: `parseInt` reads back the canonical spelling of any
      non-negative integer, with or without a `0x` prefix. */
  lemma ParseIntHexRoundTrip(n: nat)
    ensures ParseIntHex(HexDigitsOf(n)) == Num(n as real)
    ensures ParseIntHex("0x" + HexDigitsOf(n)) == Num(n as real)
  {
    var ds := HexDigitsOf(n);
    HexValueOfDigits(n);
    DigitsHaveNoPrefix(ds);
    ParseIntHexOfDigits(ds);
    ParseIntHexOfPrefixed(ds);
  }

  lemma DigitsHaveNoPrefix(ds: string)
    requires AllHexDigits(ds)
    ensures !StartsWith(ds, "0x") && !StartsWith(ds, "0X")
  {
    if |ds| >= 2 {
      assert IsHexDigit(ds[1]);
    }
  }

  /** The default colour written as a string reads as 0x00ff00. */
  lemma ParseIntHexGreen()
    ensures ParseIntHex("00ff00") == Num(65280.0)
  {
    assert "00ff00"[..5] == "00ff0" && "00ff0"[..4] == "00ff" && "00ff"[..3] == "00f";
    assert "00f"[..2] == "00" && "00"[..1] == "0" && "0"[..0] == "";
    assert HexValue("00ff00") == 65280;
    assert "00ff00"[..2] == "00";
    ParseIntHexOfDigits("00ff00");
  }

  /** Leading white space and a sign are accepted. */
  lemma ParseIntHexSigned()
    ensures ParseIntHex(" -FF") == Num(-255.0)
  {
    SkipWhiteSpaceUnique(" -FF", 1);
    assert TrimStart(" -FF") == "-FF";
    assert "-FF"[1..] == "FF";
    assert HexPrefix("FF") == "FF";
    assert "FF"[..1] == "F";
    assert HexValue("FF") == 255;
  }

  /** Reading stops at the first non-digit. */
  lemma ParseIntHexStopsAtNonDigit()
    ensures ParseIntHex("ffzz") == Num(255.0)
  {
    SkipWhiteSpaceUnique("ffzz", 0);
    assert TrimStart("ffzz") == "ffzz";
    assert HexPrefix("ffzz") == "ff";
    assert "ff"[..1] == "f";
    assert HexValue("ff") == 255;
  }

  /** No leading digit at all, including the empty string, gives NaN. */
  lemma ParseIntHexWithoutDigits()
    ensures ParseIntHex("zz") == NaN
    ensures ParseIntHex("") == NaN
  {
    SkipWhiteSpaceUnique("zz", 0);
    assert TrimStart("zz") == "zz";
  }
}

=== FILE: js_strings.dfy ===
/** The ECMAScript string operations the line parser relies on:
    `trim`, `indexOf`, `split` with a string separator, `startsWith`,
    `includes` and `replace` of a one-character literal. JavaScript
    strings are sequences of UTF-16 code units; here a string is a
    sequence of Dafny characters. */
module JsStrings {
  import opened Wrappers

  /** WhiteSpace and LineTerminator code points (sections 12.2 and 12.3 of
      ECMA-262), the set `String.prototype.trim` removes. */
  predicate IsWhiteSpace(c: char) {
    || c == '\t' || c == '\n' || c == '\U{B}' || c == '\U{C}' || c == '\r' || c == ' '
    || c == '\U{A0}' || c == '\U{1680}' || ('\U{2000}' <= c <= '\U{200A}')
    || c == '\U{2028}' || c == '\U{2029}' || c == '\U{202F}' || c == '\U{205F}'
    || c == '\U{3000}' || c == '\U{FEFF}'
  }

  predicate AllWhiteSpace(s: string) {
    forall i :: 0 <= i < |s| ==> IsWhiteSpace(s[i])
  }

  /** A string with no white space at either end, i.e. one `trim` keeps. */
  predicate Trimmed(s: string) {
    s == [] || (!IsWhiteSpace(s[0]) && !IsWhiteSpace(s[|s| - 1]))
  }

  /** The index of the first character at or after `k` that is not white space. */
  function SkipWhiteSpace(s: string, k: nat): (n: nat)
    requires k <= |s|
    ensures k <= n <= |s|
    ensures forall i :: k <= i < n ==> IsWhiteSpace(s[i])
    ensures n < |s| ==> !IsWhiteSpace(s[n])
    decreases |s| - k
  {
    if k < |s| && IsWhiteSpace(s[k]) then SkipWhiteSpace(s, k + 1) else k
  }

  /** The index just after the last character before `k` that is not white space. */
  function BackOverWhiteSpace(s: string, k: nat): (n: nat)
    requires k <= |s|
    ensures n <= k
    ensures forall i :: n <= i < k ==> IsWhiteSpace(s[i])
    ensures n > 0 ==> !IsWhiteSpace(s[n - 1])
  {
    if k > 0 && IsWhiteSpace(s[k - 1]) then BackOverWhiteSpace(s, k - 1) else k
  }

  /** `String.prototype.trimStart`. */
  function TrimStart(s: string): string {
    s[SkipWhiteSpace(s, 0)..]
  }

  /** `String.prototype.trimEnd`. */
  function TrimEnd(s: string): string {
    s[..BackOverWhiteSpace(s, |s|)]
  }

  /** `String.prototype.trim`: the longest infix with white space at neither end. */
  function Trim(s: string): (r: string)
    ensures Trimmed(r)
    ensures |r| <= |s|
    ensures r == [] <==> AllWhiteSpace(s)
    ensures var a := SkipWhiteSpace(s, 0);
      && a + |r| <= |s| && r == s[a..a + |r|]
      && AllWhiteSpace(s[..a]) && AllWhiteSpace(s[a + |r|..])
  {
    var a := SkipWhiteSpace(s, 0);
    TrimStartSplit(s);
    TrimEndOf(s[a..]);
    TrimEndSlice(s, a);
    TrimEnd(TrimStart(s))
  }

  /** `trimStart` removes a white-space prefix and stops at the first other
      character; it removes everything exactly when all is white space. */
  lemma TrimStartSplit(s: string)
    ensures var a := SkipWhiteSpace(s, 0);
      && AllWhiteSpace(s[..a])
      && (a < |s| ==> !IsWhiteSpace(s[a]))
      && (AllWhiteSpace(s) <==> a == |s|)
  {
  }

  /** Trimming the end of a string that starts with no white space leaves
      a trimmed string, empty only when the input was. */
  lemma TrimEndOf(t: string)
    requires t == [] || !IsWhiteSpace(t[0])
    ensures Trimmed(TrimEnd(t)) && (TrimEnd(t) == [] <==> t == [])
  {
  }

  /** Trimming the end of the suffix at `a` leaves a slice of `s` followed
      by white space only. */
  lemma TrimEndSlice(s: string, a: nat)
    requires a <= |s|
    ensures var r := TrimEnd(s[a..]);
      && a + |r| <= |s| && r == s[a..a + |r|] && AllWhiteSpace(s[a + |r|..])
  {
    var t := s[a..];
    var b := BackOverWhiteSpace(t, |t|);
    assert t[..b] == s[a..a + b];
    assert s[a + b..] == t[b..];
  }

  /** A white-space count at `k` is the one `SkipWhiteSpace` finds. */
  lemma SkipWhiteSpaceUnique(s: string, n: nat)
    requires n <= |s|
    requires forall i :: 0 <= i < n ==> IsWhiteSpace(s[i])
    requires n < |s| ==> !IsWhiteSpace(s[n])
    ensures SkipWhiteSpace(s, 0) == n
  {
    var m := SkipWhiteSpace(s, 0);
    assert m < |s| ==> !IsWhiteSpace(s[m]);
  }

  /** Trimming a trimmed string changes nothing. */
  lemma TrimKeepsTrimmed(s: string)
    requires Trimmed(s)
    ensures Trim(s) == s
  {
    if s != [] {
      SkipWhiteSpaceUnique(s, 0);
      assert TrimStart(s) == s;
    }
  }

  lemma TrimIdempotent(s: string)
    ensures Trim(Trim(s)) == Trim(s)
  {
    TrimKeepsTrimmed(Trim(s));
  }

  /** Leading white space does not change what `trim` returns. */
  lemma TrimIgnoresLeadingWhiteSpace(pad: string, s: string)
    requires AllWhiteSpace(pad)
    ensures Trim(pad + s) == Trim(s)
  {
    var t := pad + s;
    var n := SkipWhiteSpace(s, 0);
    assert forall i :: 0 <= i < |s| ==> t[|pad| + i] == s[i];
    SkipWhiteSpaceUnique(t, |pad| + n);
    assert TrimStart(t) == TrimStart(s);
  }

  /** `s.includes(c)` for a one-character needle. */
  predicate Includes(s: string, c: char) {
    c in s
  }

  /** `s.startsWith(p)`. */
  predicate StartsWith(s: string, p: string) {
    |p| <= |s| && s[..|p|] == p
  }

  /** `s.endsWith(p)`. */
  predicate EndsWith(s: string, p: string) {
    |p| <= |s| && s[|s| - |p|..] == p
  }

  /** A prefix stays a prefix when the same text is put in front of both. */
  lemma StartsWithPrepend(a: string, s: string, p: string)
    requires StartsWith(s, p)
    ensures StartsWith(a + s, a + p)
  {
    assert (a + s)[..|a + p|] == a + s[..|p|];
  }

  /** `sep` occurs in `s` at index `j`. */
  predicate OccursAt(s: string, sep: string, j: int) {
    0 <= j && j + |sep| <= |s| && s[j..j + |sep|] == sep
  }

  /** The scan behind `s.indexOf(sep)`, started at `k` with no occurrence before it. */
  function IndexFrom(s: string, sep: string, k: nat): (r: Option<nat>)
    requires |sep| > 0
    requires forall j :: 0 <= j < k ==> !OccursAt(s, sep, j)
    ensures r.Some? ==> OccursAt(s, sep, r.value)
    ensures r.Some? ==> forall j :: 0 <= j < r.value ==> !OccursAt(s, sep, j)
    ensures r.None? <==> forall j :: !OccursAt(s, sep, j)
    decreases |s| - k
  {
    if k + |sep| > |s| then None
    else if OccursAt(s, sep, k) then Some(k)
    else IndexFrom(s, sep, k + 1)
  }

  /** `s.indexOf(sep)`, with `None` for -1: the leftmost occurrence. */
  function IndexOf(s: string, sep: string): (r: Option<nat>)
    requires |sep| > 0
    ensures r.Some? ==> OccursAt(s, sep, r.value)
    ensures r.Some? ==> forall j :: 0 <= j < r.value ==> !OccursAt(s, sep, j)
    ensures r.None? <==> forall j :: !OccursAt(s, sep, j)
  {
    IndexFrom(s, sep, 0)
  }

  /** A one-character separator is found exactly when the character is present. */
  lemma IndexOfChar(s: string, c: char)
    ensures IndexOf(s, [c]).Some? <==> c in s
  {
    if c in s {
      var k :| 0 <= k < |s| && s[k] == c;
      assert OccursAt(s, [c], k);
    } else {
      forall j | 0 <= j < |s|
        ensures !OccursAt(s, [c], j)
      {
        assert s[j..j + 1][0] == s[j];
      }
    }
  }

  /** A string without the separator's first character holds no occurrence of it. */
  lemma IndexOfAbsent(s: string, sep: string)
    requires |sep| > 0 && sep[0] !in s
    ensures IndexOf(s, sep) == None
  {
    forall j | 0 <= j && j + |sep| <= |s|
      ensures !OccursAt(s, sep, j)
    {
      assert s[j..j + |sep|][0] == s[j];
    }
  }

  /** The first occurrence in `x + sep + y` is the one right after `x`. */
  lemma IndexOfAfter(x: string, sep: string, y: string)
    requires |sep| > 0 && sep[0] !in x
    ensures IndexOf(x + sep + y, sep) == Some(|x|)
  {
    var s := x + sep + y;
    assert s[|x|..|x| + |sep|] == sep;
    assert OccursAt(s, sep, |x|);
    forall j | 0 <= j < |x|
      ensures !OccursAt(s, sep, j)
    {
      assert s[j..j + |sep|][0] == x[j];
    }
  }

  /** No occurrence starts inside a prefix that ends before the first one. */
  lemma PrefixBeforeFirstOccurrence(s: string, sep: string, i: nat)
    requires |sep| > 0 && i <= |s|
    requires forall j :: 0 <= j < i ==> !OccursAt(s, sep, j)
    ensures IndexOf(s[..i], sep) == None
  {
    forall j | OccursAt(s[..i], sep, j)
      ensures false
    {
      assert s[..i][j..j + |sep|] == s[j..j + |sep|];
      assert OccursAt(s, sep, j);
    }
  }

  /** The pieces of a split glued back together with the separator. */
  function Join(parts: seq<string>, sep: string): string
    requires |parts| >= 1
  {
    if |parts| == 1 then parts[0] else parts[0] + sep + Join(parts[1..], sep)
  }

  /** A join starts with its first piece's first character. */
  lemma JoinFirst(parts: seq<string>, sep: string)
    requires |parts| >= 1 && parts[0] != []
    ensures Join(parts, sep) != [] && Join(parts, sep)[0] == parts[0][0]
  {
  }

  /** A join ends with its last piece's last character. */
  lemma {:induction false} JoinLast(parts: seq<string>, sep: string)
    requires |parts| >= 1 && parts[|parts| - 1] != []
    ensures Join(parts, sep) != []
    ensures Join(parts, sep)[|Join(parts, sep)| - 1] == parts[|parts| - 1][|parts[|parts| - 1]| - 1]
  {
    if |parts| > 1 {
      JoinLast(parts[1..], sep);
    }
  }

  /** `s.split(sep)` for a non-empty separator: the pieces between the
      leftmost non-overlapping occurrences, scanning from the left. */
  function Split(s: string, sep: string): (parts: seq<string>)
    requires |sep| > 0
    ensures |parts| >= 1
    ensures |parts| >= 2 <==> IndexOf(s, sep).Some?
    decreases |s|
  {
    match IndexOf(s, sep)
    case None => [s]
    case Some(i) => [s[..i]] + Split(s[i + |sep|..], sep)
  }

  /** Joining the pieces of a split gives back the string, and no piece
      holds the separator. */
  lemma {:induction false} JoinSplit(s: string, sep: string)
    requires |sep| > 0
    ensures Join(Split(s, sep), sep) == s
    ensures forall i :: 0 <= i < |Split(s, sep)| ==> IndexOf(Split(s, sep)[i], sep) == None
    decreases |s|
  {
    match IndexOf(s, sep)
    case None =>
    case Some(i) =>
      var rest := Split(s[i + |sep|..], sep);
      JoinSplit(s[i + |sep|..], sep);
      PrefixBeforeFirstOccurrence(s, sep, i);
      assert s == s[..i] + sep + s[i + |sep|..] by {
        assert s == s[..i] + s[i..i + |sep|] + s[i + |sep|..];
      }
      assert ([s[..i]] + rest)[1..] == rest;
      assert Split(s, sep) == [s[..i]] + rest;
  }

  lemma {:induction false} SplitJoin(parts: seq<string>, sep: string)
    requires |sep| > 0 && |parts| >= 1
    requires forall i :: 0 <= i < |parts| ==> sep[0] !in parts[i]
    ensures Split(Join(parts, sep), sep) == parts
  {
    if |parts| == 1 {
      IndexOfAbsent(parts[0], sep);
    } else {
      SplitAfterPiece(parts[0], sep, Join(parts[1..], sep));
      SplitJoin(parts[1..], sep);
      assert parts == [parts[0]] + parts[1..];
    }
  }

  /** A piece free of the separator's first character splits off first. */
  lemma SplitAfterPiece(x: string, sep: string, rest: string)
    requires |sep| > 0 && sep[0] !in x
    ensures Split(x + sep + rest, sep) == [x] + Split(rest, sep)
  {
    IndexOfAfter(x, sep, rest);
    var s := x + sep + rest;
    assert s[..|x|] == x;
    assert s[|x| + |sep|..] == rest;
  }

  /** Splitting at a one-character separator whose first occurrence is at `i`. */
  lemma SplitAtFirst(s: string, c: char, i: nat)
    requires i < |s| && s[i] == c && c !in s[..i]
    ensures Split(s, [c]) == [s[..i]] + Split(s[i + 1..], [c])
  {
    assert s == s[..i] + [c] + s[i + 1..];
    IndexOfAfter(s[..i], [c], s[i + 1..]);
  }

  /** The first piece of a split ends at the first separator, or at the end. */
  lemma SplitFirstPiece(s: string, c: char, j: nat)
    requires j <= |s| && c !in s[..j] && (j == |s| || s[j] == c)
    ensures Split(s, [c])[0] == s[..j]
  {
    if j < |s| {
      SplitAtFirst(s, c, j);
    } else {
      assert s[..j] == s;
      IndexOfAbsent(s, [c]);
    }
  }

  /** The first two pieces of a split on one character: the case of
      `SplitSecondPiece` stated with character membership instead of
      occurrences, which is how the opener rule reads. */
  lemma SplitFirstTwo(s: string, c: char, i: nat, j: nat)
    requires i < j <= |s| && s[i] == c && c !in s[..i]
    requires c !in s[i + 1..j] && (j == |s| || s[j] == c)
    ensures |Split(s, [c])| >= 2
    ensures Split(s, [c])[0] == s[..i] && Split(s, [c])[1] == s[i + 1..j]
  {
    IndexOfCharAt(s, c, i);
    forall k | i + 1 <= k < j
      ensures !OccursAt(s, [c], k)
    {
      assert s[k..k + 1][0] == s[i + 1..j][k - i - 1];
    }
    if j < |s| {
      assert s[j..j + 1] == [c];
    }
    SplitSecondPiece(s, [c], i, j);
  }

  /** The first index holding a character is where `indexOf` finds it. */
  lemma IndexOfCharAt(s: string, c: char, i: nat)
    requires i < |s| && s[i] == c && c !in s[..i]
    ensures IndexOf(s, [c]) == Some(i)
  {
    assert s[i..i + 1] == [c];
    assert OccursAt(s, [c], i);
    var r := IndexOf(s, [c]);
    assert r.Some?;
  }

  /** An occurrence in a suffix is an occurrence in the whole string,
      shifted by where the suffix starts. */
  lemma OccursShift(s: string, sep: string, a: nat, m: nat)
    requires a <= |s|
    ensures OccursAt(s[a..], sep, m) <==> OccursAt(s, sep, a + m)
  {
    if a + m + |sep| <= |s| {
      assert s[a..][m..m + |sep|] == s[a + m..a + m + |sep|];
    }
  }

  /** The first two pieces of a split: up to the first occurrence `i`, and
      from just after it up to the next occurrence `j`, or to the end. */
  lemma SplitSecondPiece(s: string, sep: string, i: nat, j: nat)
    requires |sep| > 0 && IndexOf(s, sep) == Some(i)
    requires i + |sep| <= j <= |s|
    requires forall k :: i + |sep| <= k < j ==> !OccursAt(s, sep, k)
    requires j == |s| || OccursAt(s, sep, j)
    ensures |Split(s, sep)| >= 2
    ensures Split(s, sep)[0] == s[..i] && Split(s, sep)[1] == s[i + |sep|..j]
  {
    var a := i + |sep|;
    SplitSuffixFirstPiece(s, sep, a, j);
    SplitSecondPieceIs(s, sep, i, s[a..j]);
  }

  /** Read from `a`, the first piece of a split runs to the next occurrence
      `j`, or to the end. */
  lemma SplitSuffixFirstPiece(s: string, sep: string, a: nat, j: nat)
    requires |sep| > 0 && a <= j <= |s|
    requires forall k :: a <= k < j ==> !OccursAt(s, sep, k)
    requires j == |s| || OccursAt(s, sep, j)
    ensures Split(s[a..], sep)[0] == s[a..j]
  {
    IndexOfInSuffix(s, sep, a, j);
    SuffixPrefix(s, a, j);
    SplitFirstPieceOf(s[a..], sep, j - a, s[a..j]);
  }

  /** Read from `a`, the first occurrence is the next one at or after `a`. */
  lemma IndexOfInSuffix(s: string, sep: string, a: nat, j: nat)
    requires |sep| > 0 && a <= j <= |s|
    requires forall k :: a <= k < j ==> !OccursAt(s, sep, k)
    requires j == |s| || OccursAt(s, sep, j)
    ensures IndexOf(s[a..], sep) == if j == |s| then None else Some(j - a)
  {
    NoOccurrenceInSuffix(s, sep, a, j - a);
    if j < |s| {
      OccursShift(s, sep, a, j - a);
    } else {
      assert forall m :: !OccursAt(s[a..], sep, m);
    }
  }

  lemma SuffixPrefix<T>(s: seq<T>, a: nat, j: nat)
    requires a <= j <= |s|
    ensures s[a..][..j - a] == s[a..j]
  {
  }

  /** The first piece of a split ends at the first occurrence, or at the end. */
  lemma SplitFirstPieceOf(s: string, sep: string, k: nat, x: string)
    requires |sep| > 0 && k <= |s| && s[..k] == x
    requires IndexOf(s, sep) == if k == |s| then None else Some(k)
    ensures Split(s, sep)[0] == x
  {
    if k == |s| {
      assert s == x;
    }
  }

  /** The second piece is the first piece of what follows the first
      occurrence. */
  lemma SplitSecondPieceIs(s: string, sep: string, i: nat, x: string)
    requires |sep| > 0 && IndexOf(s, sep) == Some(i)
    requires Split(s[i + |sep|..], sep)[0] == x
    ensures |Split(s, sep)| >= 2 && Split(s, sep)[0] == s[..i] && Split(s, sep)[1] == x
  {
    SplitAtOccurrence(s, sep, i);
  }

  /** A split cuts at the first occurrence and carries on after it. */
  lemma SplitAtOccurrence(s: string, sep: string, i: nat)
    requires |sep| > 0 && IndexOf(s, sep) == Some(i)
    ensures i + |sep| <= |s|
    ensures Split(s, sep) == [s[..i]] + Split(s[i + |sep|..], sep)
  {
  }

  /** Occurrence-free stretches stay so when read in a suffix. */
  lemma NoOccurrenceInSuffix(s: string, sep: string, a: nat, k: nat)
    requires a + k <= |s|
    requires forall m :: a <= m < a + k ==> !OccursAt(s, sep, m)
    ensures forall m :: 0 <= m < k ==> !OccursAt(s[a..], sep, m)
  {
    forall m | 0 <= m < k
      ensures !OccursAt(s[a..], sep, m)
    {
      OccursShift(s, sep, a, m);
    }
  }

  /** `s.replace(c, '')` for a one-character literal pattern: only the first
      occurrence goes. */
  function RemoveFirst(s: string, c: char): (r: string)
    ensures c !in s ==> r == s
    ensures c in s ==> |r| == |s| - 1
    ensures c in s ==> exists i :: 0 <= i < |s| && s[i] == c && c !in s[..i] && r == s[..i] + s[i + 1..]
  {
    IndexOfChar(s, c);
    match IndexOf(s, [c])
    case None => s
    case Some(i) =>
      FirstOccurrenceOfChar(s, c, i);
      s[..i] + s[i + 1..]
  }

  /** The first occurrence of a one-character separator is the first index
      holding that character. */
  lemma FirstOccurrenceOfChar(s: string, c: char, i: nat)
    requires IndexOf(s, [c]) == Some(i)
    ensures i < |s| && s[i] == c && c !in s[..i]
  {
    assert s[i..i + 1][0] == s[i];
    forall k | 0 <= k < i
      ensures s[k] != c
    {
      assert !OccursAt(s, [c], k);
      assert s[k..k + 1] == [s[k]];
    }
  }

  /** `replace` drops the character at its first occurrence and keeps the rest. */
  lemma RemoveFirstAt(s: string, c: char, i: nat)
    requires i < |s| && s[i] == c && c !in s[..i]
    ensures RemoveFirst(s, c) == s[..i] + s[i + 1..]
  {
    assert s == s[..i] + [c] + s[i + 1..];
    IndexOfAfter(s[..i], [c], s[i + 1..]);
  }

  /** Removing a trailing character that occurs nowhere else leaves the rest. */
  lemma RemoveFirstLast(x: string, c: char)
    requires c !in x
    ensures RemoveFirst(x + [c], c) == x
  {
    IndexOfAfter(x, [c], []);
    assert x + [c] + [] == x + [c];
    assert (x + [c])[..|x|] == x;
  }
}

=== FILE: js_values.dfy ===
/** The JavaScript values the modelled code inspects: enough of the
    language's value space to state truthiness, `typeof x === 'string'`
    and property reads on decoded JSON records. */
module JsValues {

  /** A JavaScript value. Numbers are finite reals plus NaN. Infinities,
      which `JSON.parse` gives for literals such as `1e400` and `parseInt`
      for very long hex strings, are not modelled. */
  datatype JsValue =
    | Undefined
    | Null
    | Bool(b: bool)
    | Num(n: real)
    | NaN
    | Str(s: string)
    | Arr(elems: seq<JsValue>)
    | Obj(fields: map<string, JsValue>)

  /** The values `!v` is true of: undefined, null, false, +0/-0, NaN and "". */
  predicate Falsy(v: JsValue) {
    v == Undefined || v == Null || v == Bool(false) || v == Num(0.0) || v == NaN || v == Str("")
  }

  /** `v || d`: the left operand when it is truthy, the right one otherwise. */
  function Or(v: JsValue, d: JsValue): JsValue {
    if Falsy(v) then d else v
  }

  /** `v[key]` for the field names the modelled code reads. None of them is
      a property of a primitive or of a prototype, so only an object's own
      field can supply it. Reading a field of null or undefined throws and
      is therefore excluded here; callers check `Nullish` first. */
  function Get(v: JsValue, key: string): JsValue
    requires !Nullish(v)
  {
    if v.Obj? && key in v.fields then v.fields[key] else Undefined
  }

  /** Values whose property reads throw a TypeError. */
  predicate Nullish(v: JsValue) {
    v == Undefined || v == Null
  }
}

=== FILE: parse_script.dfy ===
/** The line-oriented scene-script parser `parseScriptAndUpdateObjects`
    (src/utils/ParseScript.js). A script is a sequence of blocks

        Object1:cube{
          rotation.z(0,90)<>lowPower(10,100)
        }

    read one trimmed line at a time with a cursor that is either empty or
    holds the object whose block is open. */
module ParseScript {
  import opened Wrappers
  import opened JsValues
  import opened JsStrings
  import opened Scene
  import opened Seqs

  /** The two numeric tokens of a range, as written. The source applies
      `Number` to them; `hi` is None when the range has no comma, which
      leaves the second number `undefined`. */
  datatype Bounds = Bounds(lo: string, hi: Option<string>)

  /** One mapping line: `property(range)<>audioProperty(audioRange)`. The
      source stores the bounds flat as minRange/maxRange/audioMin/audioMax. */
  datatype Mapping = Mapping(property: string, range: Bounds, audioProperty: string, audioRange: Bounds)

  datatype SceneObject = SceneObject(
    name: string,
    geometry: Geometry,
    color: int,
    position: Vec3,
    rotation: Vec3,
    scale: Vec3,
    mappings: seq<Mapping>)

  /** What a single line can throw. */
  datatype LineError =
    | UnsupportedObjectType(objectType: string)
    | InvalidPropertyMapping(line: string)
      /** A side of a mapping without `(`: the source calls `replace` on
          `undefined` and the engine throws a TypeError. */
    | RangeUndefined

  datatype ScriptError =
      /** Thrown before parsing, for a falsy or non-string script. */
    | InvalidScript
      /** A line failed; the whole parse is abandoned. */
    | ParseFailure(cause: LineError)

  /** The message of the thrown `Error`. The TypeError text is V8's. */
  function Message(e: ScriptError): (msg: string)
    ensures e.ParseFailure? ==> StartsWith(msg, ErrorPrefix)
    ensures e.ParseFailure? && e.cause.InvalidPropertyMapping? ==> EndsWith(msg, e.cause.line)
  {
    match e
    case InvalidScript => "Invalid script provided"
    case ParseFailure(cause) =>
      var prefix := ErrorPrefix;
      var detail := match cause
        case UnsupportedObjectType(t) => "Unsupported object type: " + t
        case InvalidPropertyMapping(line) => "Invalid property mapping in line: " + line
        case RangeUndefined => "Cannot read properties of undefined (reading 'replace')";
      assert (prefix + detail)[..|prefix|] == prefix;
      assert cause.InvalidPropertyMapping? ==>
        (prefix + detail)[|prefix + detail| - |cause.line|..] == cause.line;
      prefix + detail
  }

  /** The parser's state between lines: objects emitted so far, and the
      object whose block is open, if any. */
  datatype ParseState = ParseState(objects: seq<SceneObject>, cursor: Option<SceneObject>)

  const Start: ParseState := ParseState([], None)

  /** The object an opener line creates: a green unit cube at the origin,
      unrotated, unscaled, without mappings. */
  function NewObject(name: string): (o: SceneObject)
    ensures HasDefaults(o) && o.name == name && o.mappings == []
  {
    SceneObject(name, Cube, DefaultColor, Origin, Origin, UnitScale, [])
  }

  /** The line grammar cannot set geometry, colour or transforms: every
      object it builds keeps the defaults of `NewObject`. */
  predicate HasDefaults(o: SceneObject) {
    && o.geometry == Cube
    && o.color == DefaultColor
    && o.position == Origin
    && o.rotation == Origin
    && o.scale == UnitScale
  }

  /** How a line is read, tested in the source's order. A body line also
      carries what reading it as a mapping gives. That reading is pure and
      is consulted only inside a block, so taking it for every body line
      changes nothing. */
  datatype Line =
      /** Empty after trimming. */
    | Blank
      /** Has both `:` and `{`: `name` is the trimmed text before the first
          `:`, `objectType` the trimmed text between the first and second. */
    | Opener(name: string, objectType: string)
      /** Exactly `}` after trimming. */
    | Closer
      /** Anything else, trimmed. */
    | Body(text: string, mapping: Result<Mapping, LineError>)

  function Classify(raw: string): (l: Line)
    ensures l.Blank? <==> AllWhiteSpace(raw)
    ensures l.Closer? <==> Trim(raw) == "}"
    ensures l.Body? ==> l.text == Trim(raw) && l.text != ""
    ensures l.Body? ==> ':' !in l.text || '{' !in l.text
  {
    var line := Trim(raw);
    if line == "" then Blank
    else if Includes(line, ':') && Includes(line, '{') then
      IndexOfChar(line, ':');
      var parts := Split(line, ":");
      Opener(Trim(parts[0]), Trim(parts[1]))
    else if line == "}" then Closer
    else Body(line, ParseMapping(line))
  }

  /** `script.trim().split('\n')`, each line classified. */
  function Tokens(script: string): (ts: seq<Line>)
    ensures |ts| == |Split(Trim(script), "\n")| >= 1
    ensures |ts| >= 2 <==> '\n' in Trim(script)
    ensures forall i :: 0 <= i < |ts| ==> ts[i] == Classify(Split(Trim(script), "\n")[i])
  {
    IndexOfChar(Trim(script), '\n');
    Map(Classify, Split(Trim(script), "\n"))
  }

  /** `range.replace(')', '').split(',')`, destructured into two tokens:
      the first `)` is dropped, then `lo` runs to the first comma and `hi`
      from there to the second comma or the end. */
  function ReadBounds(range: string): (b: Bounds)
    ensures b.hi.None? <==> ',' !in RemoveFirst(range, ')')
  {
    var numbers := Split(RemoveFirst(range, ')'), ",");
    IndexOfChar(RemoveFirst(range, ')'), ',');
    Bounds(numbers[0], if |numbers| >= 2 then Some(numbers[1]) else None)
  }

  /** `lo` is the text, with the first `)` removed, up to the first comma. */
  lemma BoundsLo(range: string, t: string, c: nat)
    requires t == RemoveFirst(range, ')')
    requires c <= |t| && ',' !in t[..c] && (c == |t| || t[c] == ',')
    ensures ReadBounds(range).lo == t[..c]
  {
    SplitFirstPiece(t, ',', c);
  }

  /** `hi` is the text between the first and the second comma, or the end. */
  lemma BoundsHi(range: string, t: string, c: nat, d: nat)
    requires t == RemoveFirst(range, ')')
    requires c < d <= |t| && t[c] == ',' && ',' !in t[..c]
    requires ',' !in t[c + 1..d] && (d == |t| || t[d] == ',')
    ensures ReadBounds(range).hi == Some(t[c + 1..d])
  {
    SplitFirstTwo(t, ',', c, d);
  }

  /** One side of a mapping, `name(lo,hi)`: the trimmed text before the
      first `(`, and the bounds read from the text after it. */
  function ParseSide(side: string): (r: Result<(string, Bounds), LineError>)
    ensures r.Failure? <==> '(' !in side
    ensures r.Failure? ==> r.error == RangeUndefined
  {
    IndexOfChar(side, '(');
    var pieces := Split(side, "(");
    if |pieces| < 2 then Failure(RangeUndefined)
    else Success((Trim(pieces[0]), ReadBounds(pieces[1])))
  }

  /** A side with its first `(` at `p`: the name is the trimmed text before
      it, and the bounds are read from the text after it up to the next `(`
      or the end. */
  lemma SideFields(side: string, p: nat, q: nat)
    requires p < q <= |side| && side[p] == '(' && '(' !in side[..p]
    requires '(' !in side[p + 1..q] && (q == |side| || side[q] == '(')
    ensures ParseSide(side) == Success((Trim(side[..p]), ReadBounds(side[p + 1..q])))
  {
    SplitFirstTwo(side, '(', p, q);
  }

  /** A body line inside a block: split at `<>`, both sides must be
      non-empty, then each side is read by `ParseSide`, property first. */
  function ParseMapping(line: string): (r: Result<Mapping, LineError>)
    ensures IndexOf(line, "<>").None? ==> r == Failure(InvalidPropertyMapping(line))
    ensures StartsWith(line, "<>") ==> r == Failure(InvalidPropertyMapping(line))
    ensures r.Success? ==> '(' in line
  {
    var halves := Split(line, "<>");
    if halves[0] == "" || |halves| < 2 || halves[1] == "" then
      Failure(InvalidPropertyMapping(line))
    else
      var lhs :- ParseSide(halves[0]);
      var rhs :- ParseSide(halves[1]);
      Success(Mapping(lhs.0, lhs.1, rhs.0, rhs.1))
  }

  /** The two halves of a mapping line whose first `<>` is at `i`: the text
      before it, and the text from after it up to the next `<>` at `j` or
      the end. A third `<>`-piece is dropped by the destructuring. */
  predicate MappingCut(line: string, i: nat, j: nat) {
    && IndexOf(line, "<>") == Some(i)
    && i + 2 <= j <= |line|
    && (forall k :: i + 2 <= k < j ==> !OccursAt(line, "<>", k))
    && (j == |line| || OccursAt(line, "<>", j))
  }

  /** A line is rejected as an invalid mapping exactly when it has no `<>`,
      or nothing before the first `<>`, or nothing between it and the next
      `<>` or the end of the line. */
  lemma MappingRejected(line: string, i: nat, j: nat)
    requires MappingCut(line, i, j)
    ensures ParseMapping(line) == Failure(InvalidPropertyMapping(line)) <==> i == 0 || j == i + 2
  {
    SplitSecondPiece(line, "<>", i, j);
  }

  /** When both halves are non-empty, the line reads as a mapping exactly
      when each half holds a `(`; the property side is the first half and
      the audio side the second. */
  lemma MappingFields(line: string, i: nat, j: nat)
    requires MappingCut(line, i, j) && 0 < i && i + 2 < j
    ensures ParseMapping(line).Success? <==> '(' in line[..i] && '(' in line[i + 2..j]
    ensures ParseMapping(line).Failure? ==> ParseMapping(line).error == RangeUndefined
    ensures ParseMapping(line).Success? ==>
      var m := ParseMapping(line).value;
      && ParseSide(line[..i]) == Success((m.property, m.range))
      && ParseSide(line[i + 2..j]) == Success((m.audioProperty, m.audioRange))
  {
    SplitSecondPiece(line, "<>", i, j);
  }

  /** Every emitted object, and the open one, still has the defaults. */
  predicate AllDefaults(st: ParseState) {
    && (forall i :: 0 <= i < |st.objects| ==> HasDefaults(st.objects[i]))
    && (st.cursor.Some? ==> HasDefaults(st.cursor.value))
  }

  /** One iteration of the `forEach` over the lines. */
  function Step(st: ParseState, l: Line): (r: Result<ParseState, LineError>)
    ensures l.Blank? ==> r == Success(st)
    ensures r.Success? ==> st.objects <= r.value.objects && |r.value.objects| <= |st.objects| + 1
    ensures r.Success? && |r.value.objects| > |st.objects| ==>
      && l.Closer?
      && st.cursor == Some(r.value.objects[|st.objects|])
      && r.value.cursor == None
    ensures r.Failure? ==> l.Opener? || (l.Body? && st.cursor.Some?)
    ensures AllDefaults(st) && r.Success? ==> AllDefaults(r.value)
    ensures l.Opener? && StartsWith(l.objectType, "cube") ==>
      r == Success(ParseState(st.objects, Some(NewObject(l.name))))
    ensures l.Body? && st.cursor.Some? && l.mapping.Success? ==>
      r == Success(ParseState(st.objects,
        Some(st.cursor.value.(mappings := st.cursor.value.mappings + [l.mapping.value]))))
  {
    match l
    case Blank => Success(st)
    case Opener(name, objectType) =>
      if StartsWith(objectType, "cube") then Success(ParseState(st.objects, Some(NewObject(name))))
      else Failure(UnsupportedObjectType(objectType))
    case Closer =>
      if st.cursor.Some? then Success(ParseState(st.objects + [st.cursor.value], None))
      else Success(st)
    case Body(_, mapping) =>
      if st.cursor.Some? then
        var m :- mapping;
        var o := st.cursor.value;
        Success(ParseState(st.objects, Some(o.(mappings := o.mappings + [m]))))
      else
        Success(st)
  }

  /** The `forEach` over all lines, stopping at the first line that throws. */
  function Fold(st: ParseState, ls: seq<Line>): (r: Result<ParseState, LineError>)
    ensures r.Success? ==> st.objects <= r.value.objects
    ensures AllDefaults(st) && r.Success? ==> AllDefaults(r.value)
    decreases |ls|
  {
    if ls == [] then Success(st)
    else
      var next :- Step(st, ls[0]);
      Fold(next, ls[1..])
  }

  /** `parseScriptAndUpdateObjects(script)`: the objects whose blocks were
      closed, in closing order, or the error that aborted the parse. */
  function ParseScriptAndUpdateObjects(script: JsValue): (r: Result<seq<SceneObject>, ScriptError>)
    ensures !(script.Str? && script.s != "") <==> r == Failure(InvalidScript)
    ensures script.Str? && script.s != "" && AllWhiteSpace(script.s) ==> r == Success([])
    ensures r.Success? ==> forall i :: 0 <= i < |r.value| ==> HasDefaults(r.value[i])
  {
    if !script.Str? || script.s == "" then Failure(InvalidScript)
    else
      assert AllWhiteSpace(script.s) ==> Tokens(script.s) == [Blank] by {
        if AllWhiteSpace(script.s) {
          assert Trim(script.s) == "";
          assert IndexOf("", "\n") == None;
          assert Split("", "\n") == [""];
          assert Classify("") == Blank;
        }
      }
      assert Fold(Start, [Blank]) == Success(Start) by {
        assert [Blank][1..] == [];
      }
      match Fold(Start, Tokens(script.s))
      case Failure(e) => Failure(ParseFailure(e))
      case Success(st) => Success(st.objects)
  }

  /** Folding over a non-empty run of lines takes the first line's step. */
  lemma FoldCons(st: ParseState, ls: seq<Line>)
    requires ls != []
    ensures Step(st, ls[0]).Failure? ==> Fold(st, ls) == Failure(Step(st, ls[0]).error)
    ensures Step(st, ls[0]).Success? ==> Fold(st, ls) == Fold(Step(st, ls[0]).value, ls[1..])
  {
  }

  /** Folding over two runs of lines is folding over the first and then,
      if it succeeded, over the second from where it stopped. */
  lemma {:induction false} FoldConcat(st: ParseState, a: seq<Line>, b: seq<Line>)
    ensures Fold(st, a).Failure? ==> Fold(st, a + b) == Fold(st, a)
    ensures Fold(st, a).Success? ==> Fold(st, a + b) == Fold(Fold(st, a).value, b)
    decreases |a|
  {
    if a == [] {
      assert a + b == b;
    } else {
      assert (a + b)[0] == a[0] && (a + b)[1..] == a[1..] + b;
      var next := Step(st, a[0]);
      if next.Success? {
        FoldConcat(next.value, a[1..], b);
      }
    }
  }

  /** Atomicity: when the line at index `k` throws, the parse fails with that
      line's error and no object at all is returned, whatever came before. */
  lemma FailingLineAbortsParse(script: string, k: nat)
    requires script != "" && k < |Tokens(script)|
    requires Fold(Start, Tokens(script)[..k]).Success?
    requires Step(Fold(Start, Tokens(script)[..k]).value, Tokens(script)[k]).Failure?
    ensures ParseScriptAndUpdateObjects(Str(script)) ==
      Failure(ParseFailure(Step(Fold(Start, Tokens(script)[..k]).value, Tokens(script)[k]).error))
  {
    FoldFailsAt(Start, Tokens(script), k);
  }

  /** The fold stops at the first line whose step throws. */
  lemma FoldFailsAt(st: ParseState, ls: seq<Line>, k: nat)
    requires k < |ls| && Fold(st, ls[..k]).Success?
    requires Step(Fold(st, ls[..k]).value, ls[k]).Failure?
    ensures Fold(st, ls) == Failure(Step(Fold(st, ls[..k]).value, ls[k]).error)
  {
    FoldConcat(st, ls[..k], ls[k..]);
    assert ls[..k] + ls[k..] == ls;
    FoldCons(Fold(st, ls[..k]).value, ls[k..]);
  }

  function CountClosers(ls: seq<Line>): nat {
    if ls == [] then 0
    else (if ls[0].Closer? then 1 else 0) + CountClosers(ls[1..])
  }

  /** Objects are emitted only by closers: a run of lines with no `}` line
      emits nothing, so a block still open at the end of the script is lost. */
  lemma {:induction false} OnlyClosersEmit(st: ParseState, ls: seq<Line>)
    requires Fold(st, ls).Success?
    ensures |Fold(st, ls).value.objects| <= |st.objects| + CountClosers(ls)
    ensures CountClosers(ls) == 0 ==> Fold(st, ls).value.objects == st.objects
    decreases |ls|
  {
    if ls != [] {
      OnlyClosersEmit(Step(st, ls[0]).value, ls[1..]);
    }
  }

  /** Opening a block while another is open discards the unfinished object. */
  lemma ReopeningDiscardsOpenObject(st: ParseState, name: string, objectType: string)
    requires st.cursor.Some? && StartsWith(objectType, "cube")
    ensures Step(st, Opener(name, objectType)) == Success(ParseState(st.objects, Some(NewObject(name))))
  {
  }

  /** A `}` emits the open object and clears the cursor; with no open block it does nothing. */
  lemma CloserEmitsOpenObject(st: ParseState)
    ensures st.cursor.Some? ==> Step(st, Closer) == Success(ParseState(st.objects + [st.cursor.value], None))
    ensures st.cursor.None? ==> Step(st, Closer) == Success(st)
  {
  }

  /** Outside any block a line that is neither an opener nor a closer is
      ignored, even one that is not a valid mapping. */
  lemma StrayLineIgnored(st: ParseState, raw: string)
    requires st.cursor.None? && Classify(raw).Body?
    ensures Step(st, Classify(raw)) == Success(st)
  {
  }

  /** An opener whose type does not start with `cube` throws, naming the type. */
  lemma OpenerTypeChecked(st: ParseState, name: string, objectType: string)
    ensures Step(st, Opener(name, objectType)).Failure? <==> !StartsWith(objectType, "cube")
    ensures Step(st, Opener(name, objectType)).Failure? ==>
      Step(st, Opener(name, objectType)).error == UnsupportedObjectType(objectType)
  {
  }

  /** Inside a block a body line that is not a valid mapping aborts with its error. */
  lemma BadMappingInBlockThrows(st: ParseState, raw: string)
    requires st.cursor.Some? && Classify(raw).Body? && Classify(raw).mapping.Failure?
    ensures Step(st, Classify(raw)) == Failure(Classify(raw).mapping.error)
  {
  }

  /** A line is an opener exactly when its trimmed text holds both a `:`
      and a `{`. */
  lemma OpenerDetected(raw: string)
    ensures Classify(raw).Opener? <==> ':' in Trim(raw) && '{' in Trim(raw)
  {
  }

  /** An opener's name is the trimmed text before the first `:` (at `i`);
      its type is the trimmed text from there up to the second `:` (at `j`)
      or to the end of the line. */
  lemma OpenerFields(raw: string, i: nat, j: nat)
    requires var line := Trim(raw);
      && i < j <= |line| && '{' in line
      && line[i] == ':' && ':' !in line[..i]
      && ':' !in line[i + 1..j] && (j == |line| || line[j] == ':')
    ensures var line := Trim(raw);
      Classify(raw) == Opener(Trim(line[..i]), Trim(line[i + 1..j]))
  {
    var line := Trim(raw);
    SplitFirstTwo(line, ':', i, j);
    ClassifyAsOpener(raw, line[..i], line[i + 1..j]);
  }

  /** A line holding `:` and `{` starts a new open object named by its first
      `:`-piece when its second piece starts with `cube`, whatever object was
      open before, and throws naming that piece otherwise. */
  lemma OpenerLineOpens(st: ParseState, raw: string, i: nat, j: nat)
    requires var line := Trim(raw);
      && i < j <= |line| && '{' in line
      && line[i] == ':' && ':' !in line[..i]
      && ':' !in line[i + 1..j] && (j == |line| || line[j] == ':')
    ensures var line := Trim(raw);
      var name, kind := Trim(line[..i]), Trim(line[i + 1..j]);
      Step(st, Classify(raw)) ==
        if StartsWith(kind, "cube") then Success(ParseState(st.objects, Some(NewObject(name))))
        else Failure(UnsupportedObjectType(kind))
  {
    OpenerFields(raw, i, j);
  }

  /** A line holding `:` and `{` is an opener built from its first two `:`-pieces. */
  lemma ClassifyAsOpener(raw: string, a: string, b: string)
    requires ':' in Trim(raw) && '{' in Trim(raw)
    requires |Split(Trim(raw), ":")| >= 2
    requires Split(Trim(raw), ":")[0] == a && Split(Trim(raw), ":")[1] == b
    ensures Classify(raw) == Opener(Trim(a), Trim(b))
  {
  }

  /** Tokens that hold none of the characters the grammar splits on. */
  predicate PlainToken(t: string) {
    forall i :: 0 <= i < |t| ==> PlainChar(t[i])
  }

  predicate PlainChar(c: char) {
    && c != '<' && c != '>' && c != '(' && c != ')' && c != ','
    && c != ':' && c != '{' && c != '}' && c != '\n'
  }

  predicate PlainBounds(b: Bounds) {
    PlainToken(b.lo) && (b.hi.Some? ==> PlainToken(b.hi.value))
  }

  predicate WellFormedMapping(m: Mapping) {
    && PlainToken(m.property) && Trimmed(m.property)
    && PlainToken(m.audioProperty) && Trimmed(m.audioProperty)
    && PlainBounds(m.range) && PlainBounds(m.audioRange)
  }

  function FormatBounds(b: Bounds): string {
    b.lo + (if b.hi.Some? then "," + b.hi.value else "")
  }

  /** The mapping line that reads back as `m`. */
  function FormatMapping(m: Mapping): string {
    m.property + "(" + FormatBounds(m.range) + ")" + "<>"
      + m.audioProperty + "(" + FormatBounds(m.audioRange) + ")"
  }

  /** The tokens of a range read back from its text followed by `)`. */
  lemma BoundsRoundTrip(b: Bounds)
    requires PlainBounds(b)
    ensures ReadBounds(FormatBounds(b) + ")") == b
  {
    RemoveFirstLast(FormatBounds(b), ')');
    if b.hi.Some? {
      assert FormatBounds(b) == b.lo + "," + b.hi.value;
      TwoTokensSplit(b.lo, b.hi.value);
    } else {
      assert FormatBounds(b) == b.lo;
      OneTokenSplit(b.lo);
    }
  }

  lemma TwoTokensSplit(lo: string, hi: string)
    requires PlainToken(lo) && PlainToken(hi)
    ensures Split(lo + "," + hi, ",") == [lo, hi]
  {
    assert Join([lo, hi], ",") == lo + "," + hi;
    SplitJoin([lo, hi], ",");
  }

  lemma OneTokenSplit(lo: string)
    requires PlainToken(lo)
    ensures Split(lo, ",") == [lo]
  {
    assert Join([lo], ",") == lo;
    SplitJoin([lo], ",");
  }

  lemma SideRoundTrip(name: string, b: Bounds)
    requires PlainToken(name) && Trimmed(name) && PlainBounds(b)
    ensures ParseSide(name + "(" + FormatBounds(b) + ")") == Success((name, b))
  {
    var rest := FormatBounds(b) + ")";
    var side := name + "(" + rest;
    assert name + "(" + FormatBounds(b) + ")" == side;
    assert Join([name, rest], "(") == side;
    SplitJoin([name, rest], "(");
    assert Split(side, "(") == [name, rest];
    BoundsRoundTrip(b);
    TrimKeepsTrimmed(name);
  }

  /** Round trip: a well-formed mapping written as a line reads back unchanged. */
  lemma {:induction false} MappingRoundTrip(m: Mapping)
    requires WellFormedMapping(m)
    ensures ParseMapping(FormatMapping(m)) == Success(m)
  {
    var lhs := m.property + "(" + FormatBounds(m.range) + ")";
    var rhs := m.audioProperty + "(" + FormatBounds(m.audioRange) + ")";
    assert FormatMapping(m) == Join([lhs, rhs], "<>");
    SplitJoin([lhs, rhs], "<>");
    SideRoundTrip(m.property, m.range);
    SideRoundTrip(m.audioProperty, m.audioRange);
  }

  /** A line whose trimmed text is neither empty, an opener nor `}` is a
      body line holding that text and its reading as a mapping. */
  lemma ClassifyAsBody(raw: string, t: string)
    requires Trim(raw) == t && t != "" && t != "}" && (':' !in t || '{' !in t)
    ensures Classify(raw) == Body(t, ParseMapping(t))
  {
  }

  lemma NotInConcat(c: char, a: string, b: string)
    requires c !in a && c !in b
    ensures c !in a + b
  {
    forall i | 0 <= i < |a + b|
      ensures (a + b)[i] != c
    {
      if i < |a| {
        assert (a + b)[i] == a[i];
      } else {
        assert (a + b)[i] == b[i - |a|];
      }
    }
  }

  lemma PlainTokenLacks(t: string, c: char)
    requires PlainToken(t) && c in "<>(),:{}\n"
    ensures c !in t
  {
  }

  lemma BoundsLack(b: Bounds, c: char)
    requires PlainBounds(b) && c in ":{}\n"
    ensures c !in FormatBounds(b)
  {
    PlainTokenLacks(b.lo, c);
    if b.hi.Some? {
      PlainTokenLacks(b.hi.value, c);
      NotInConcat(c, ",", b.hi.value);
      NotInConcat(c, b.lo, "," + b.hi.value);
    } else {
      assert FormatBounds(b) == b.lo;
    }
  }

  lemma SideLacks(name: string, b: Bounds, c: char)
    requires PlainToken(name) && PlainBounds(b) && c in ":{}\n"
    ensures c !in name + "(" + FormatBounds(b) + ")"
  {
    PlainTokenLacks(name, c);
    BoundsLack(b, c);
    NotInConcat(c, name, "(");
    NotInConcat(c, name + "(", FormatBounds(b));
    NotInConcat(c, name + "(" + FormatBounds(b), ")");
  }

  /** A mapping line holds no colon, brace or line break. */
  lemma MappingLineLacks(m: Mapping, c: char)
    requires WellFormedMapping(m) && c in ":{}\n"
    ensures c !in FormatMapping(m)
  {
    var lhs := m.property + "(" + FormatBounds(m.range) + ")";
    var rhs := m.audioProperty + "(" + FormatBounds(m.audioRange) + ")";
    SideLacks(m.property, m.range, c);
    SideLacks(m.audioProperty, m.audioRange, c);
    assert FormatMapping(m) == lhs + "<>" + rhs;
    NotInConcat(c, lhs, "<>");
    NotInConcat(c, lhs + "<>", rhs);
  }

  lemma MappingLineTrimmed(m: Mapping)
    requires WellFormedMapping(m)
    ensures Trimmed(FormatMapping(m)) && FormatMapping(m) != ""
  {
    var line := FormatMapping(m);
    var lhs := m.property + "(" + FormatBounds(m.range) + ")";
    var rhs := m.audioProperty + "(" + FormatBounds(m.audioRange) + ")";
    assert line == lhs + ("<>" + rhs);
    assert line == (lhs + "<>" + m.audioProperty + "(" + FormatBounds(m.audioRange)) + ")";
    assert line[|line| - 1] == ')';
    assert lhs[0] == (if m.property != [] then m.property[0] else '(');
    assert line[0] == lhs[0];
  }

  lemma MappingLineText(m: Mapping)
    requires WellFormedMapping(m)
    ensures Trim(FormatMapping(m)) == FormatMapping(m)
    ensures Trim("  " + FormatMapping(m)) == FormatMapping(m)
    ensures FormatMapping(m) != "" && FormatMapping(m) != "}" && ':' !in FormatMapping(m)
  {
    var line := FormatMapping(m);
    MappingLineTrimmed(m);
    MappingLineLacks(m, ':');
    MappingLineLacks(m, '}');
    TrimKeepsTrimmed(line);
    TrimIgnoresLeadingWhiteSpace("  ", line);
  }

  /** A mapping line behind any white-space indent is a body line holding
      its mapping. */
  lemma MappingLineClassify(pad: string, m: Mapping)
    requires AllWhiteSpace(pad) && WellFormedMapping(m)
    ensures Classify(pad + FormatMapping(m)) == Body(FormatMapping(m), Success(m))
  {
    var line := FormatMapping(m);
    MappingLineText(m);
    TrimIgnoresLeadingWhiteSpace(pad, line);
    ClassifyAsBody(pad + line, line);
    MappingRoundTrip(m);
  }

  /** Inside a block, the line the editor writes for a mapping, behind any
      indent, appends exactly that mapping after those of earlier lines. */
  lemma MappingLineAppends(st: ParseState, pad: string, m: Mapping)
    requires st.cursor.Some? && AllWhiteSpace(pad) && WellFormedMapping(m)
    ensures Step(st, Classify(pad + FormatMapping(m))) ==
      Success(ParseState(st.objects, Some(st.cursor.value.(mappings := st.cursor.value.mappings + [m]))))
  {
    MappingLineClassify(pad, m);
  }

  /** Inside a block, any line cut by `<>` into two non-empty sides that
      both hold `(` appends one mapping, read side by side with `ParseSide`;
      a cut whose sides lack a `(` throws `RangeUndefined` instead. */
  lemma BodyLineAppends(st: ParseState, raw: string, i: nat, j: nat)
    requires st.cursor.Some?
    requires var line := Trim(raw); line != "}" && (':' !in line || '{' !in line)
    requires MappingCut(Trim(raw), i, j) && 0 < i && i + 2 < j
    ensures var line := Trim(raw);
      Classify(raw) == Body(line, ParseMapping(line))
    ensures var line := Trim(raw);
      Step(st, Classify(raw)).Success? <==> '(' in line[..i] && '(' in line[i + 2..j]
    ensures var line := Trim(raw);
      !('(' in line[..i] && '(' in line[i + 2..j]) ==> Step(st, Classify(raw)) == Failure(RangeUndefined)
    ensures var line := Trim(raw);
      '(' in line[..i] && '(' in line[i + 2..j] ==>
      var m := ParseMapping(line).value;
      && Step(st, Classify(raw)) ==
        Success(ParseState(st.objects, Some(st.cursor.value.(mappings := st.cursor.value.mappings + [m]))))
      && ParseSide(line[..i]) == Success((m.property, m.range))
      && ParseSide(line[i + 2..j]) == Success((m.audioProperty, m.audioRange))
  {
    var line := Trim(raw);
    ClassifyAsBody(raw, line);
    MappingFields(line, i, j);
  }

  /** An opener line `name:kind{` is read as such, the type keeping its `{`. */
  lemma OpenerLine(name: string, kind: string)
    requires name != [] && Trimmed(name) && ':' !in name
    requires Trimmed(kind) && ':' !in kind
    ensures Classify(name + ":" + kind + "{") == Opener(name, kind + "{")
  {
    var line := name + ":" + kind + "{";
    OpenerLineTrimmed(name, kind);
    assert Includes(line, ':') && Includes(line, '{');
    OpenerLineSplit(name, kind);
    TrimKeepsTrimmed(name);
    OpenerTypeTrimmed(kind);
  }

  lemma OpenerLineTrimmed(name: string, kind: string)
    requires name != [] && Trimmed(name)
    ensures Trim(name + ":" + kind + "{") == name + ":" + kind + "{"
  {
    var line := name + ":" + kind + "{";
    assert line[0] == name[0] && line[|line| - 1] == '{';
    TrimKeepsTrimmed(line);
  }

  lemma OpenerLineSplit(name: string, kind: string)
    requires ':' !in name && ':' !in kind
    ensures Split(name + ":" + kind + "{", ":") == [name, kind + "{"]
  {
    assert Join([name, kind + "{"], ":") == name + ":" + kind + "{";
    SplitJoin([name, kind + "{"], ":");
  }

  lemma OpenerTypeTrimmed(kind: string)
    requires Trimmed(kind)
    ensures Trim(kind + "{") == kind + "{"
  {
    assert kind != [] ==> (kind + "{")[0] == kind[0];
    TrimKeepsTrimmed(kind + "{");
  }

  lemma CloserLine()
    ensures Classify("}") == Closer
  {
    TrimKeepsTrimmed("}");
  }

  /** An object the editor's text can carry back: defaults everywhere, a
      non-empty trimmed plain-token name and plain-token mappings. Empty
      names, a lone `<` or a `)` in a bound are beyond it. */
  predicate WellFormedObject(o: SceneObject) {
    && HasDefaults(o)
    && o.name != [] && PlainToken(o.name) && Trimmed(o.name)
    && forall i :: 0 <= i < |o.mappings| ==> WellFormedMapping(o.mappings[i])
  }

  /** The mapping lines of a block, indented as the editor writes them. */
  function MappingLines(ms: seq<Mapping>): seq<string> {
    seq(|ms|, i requires 0 <= i < |ms| => "  " + FormatMapping(ms[i]))
  }

  /** The lines of the block that reads back as `o`. */
  function BlockLines(o: SceneObject): seq<string> {
    [o.name + ":" + "cube" + "{"] + MappingLines(o.mappings) + ["}"]
  }

  function ScriptLines(objs: seq<SceneObject>): seq<string> {
    if objs == [] then [] else BlockLines(objs[0]) + ScriptLines(objs[1..])
  }

  /** The script text that reads back as `objs`. */
  function FormatScript(objs: seq<SceneObject>): string
    requires |objs| >= 1
  {
    Join(ScriptLines(objs), "\n")
  }

  function MappingTokens(ms: seq<Mapping>): seq<Line> {
    seq(|ms|, i requires 0 <= i < |ms| => Body(FormatMapping(ms[i]), Success(ms[i])))
  }

  function BlockTokens(o: SceneObject): seq<Line> {
    [Opener(o.name, "cube{")] + MappingTokens(o.mappings) + [Closer]
  }

  function ScriptTokens(objs: seq<SceneObject>): seq<Line> {
    if objs == [] then [] else BlockTokens(objs[0]) + ScriptTokens(objs[1..])
  }

  lemma MappingLinesTokens(ms: seq<Mapping>)
    requires forall i :: 0 <= i < |ms| ==> WellFormedMapping(ms[i])
    ensures Map(Classify, MappingLines(ms)) == MappingTokens(ms)
  {
    forall i | 0 <= i < |ms|
      ensures Map(Classify, MappingLines(ms))[i] == MappingTokens(ms)[i]
    {
      MappingLineClassify("  ", ms[i]);
    }
  }

  lemma BlockLinesTokens(o: SceneObject)
    requires WellFormedObject(o)
    ensures Map(Classify, BlockLines(o)) == BlockTokens(o)
  {
    CubeOpenerLine(o.name);
    FramedLinesTokens(o, o.name + ":" + "cube" + "{");
  }

  lemma CubeOpenerLine(name: string)
    requires name != [] && Trimmed(name) && PlainToken(name)
    ensures Classify(name + ":" + "cube" + "{") == Opener(name, "cube{")
  {
    PlainTokenLacks(name, ':');
    CubeKind();
    OpenerLine(name, "cube");
  }

  lemma CubeKind()
    ensures Trimmed("cube") && ':' !in "cube" && "cube" + "{" == "cube{"
  {
  }

  /** The framing lemma with the opener line kept abstract, so that its
      text is not taken apart again. */
  lemma FramedLinesTokens(o: SceneObject, opener: string)
    requires WellFormedObject(o) && Classify(opener) == Opener(o.name, "cube{")
    ensures Map(Classify, [opener] + MappingLines(o.mappings) + ["}"]) == BlockTokens(o)
  {
    CloserLine();
    MappingLinesTokens(o.mappings);
    MapFramed(Classify, opener, MappingLines(o.mappings), "}");
  }

  lemma {:induction false} ScriptLinesTokens(objs: seq<SceneObject>)
    requires forall i :: 0 <= i < |objs| ==> WellFormedObject(objs[i])
    ensures Map(Classify, ScriptLines(objs)) == ScriptTokens(objs)
    decreases |objs|
  {
    if objs != [] {
      BlockLinesTokens(objs[0]);
      ScriptLinesTokens(objs[1..]);
      MapConcat(Classify, BlockLines(objs[0]), ScriptLines(objs[1..]));
    }
  }

  lemma {:induction false} MappingTokensFold(st: ParseState, ms: seq<Mapping>)
    requires st.cursor.Some?
    ensures Fold(st, MappingTokens(ms)) ==
      Success(ParseState(st.objects, Some(st.cursor.value.(mappings := st.cursor.value.mappings + ms))))
    decreases |ms|
  {
    var c := st.cursor.value;
    if ms == [] {
      assert c.mappings + ms == c.mappings;
    } else {
      var next := ParseState(st.objects, Some(c.(mappings := c.mappings + [ms[0]])));
      FoldCons(st, MappingTokens(ms));
      assert MappingTokens(ms)[1..] == MappingTokens(ms[1..]);
      MappingTokensFold(next, ms[1..]);
      assert c.mappings + [ms[0]] + ms[1..] == c.mappings + ms;
    }
  }

  /** A block emits exactly its object, whatever the cursor held before. */
  lemma BlockFold(st: ParseState, o: SceneObject)
    requires HasDefaults(o)
    ensures Fold(st, BlockTokens(o)) == Success(ParseState(st.objects + [o], None))
  {
    var opener := [Opener(o.name, "cube{")];
    assert StartsWith("cube{", "cube");
    var st1 := ParseState(st.objects, Some(NewObject(o.name)));
    assert Fold(st, opener) == Success(st1) by {
      assert opener[1..] == [];
    }
    MappingTokensFold(st1, o.mappings);
    assert NewObject(o.name).(mappings := [] + o.mappings) == o;
    var st2 := ParseState(st.objects, Some(o));
    assert Fold(st2, [Closer]) == Success(ParseState(st.objects + [o], None)) by {
      assert [Closer][1..] == [];
    }
    FoldConcat(st, opener, MappingTokens(o.mappings));
    FoldConcat(st, opener + MappingTokens(o.mappings), [Closer]);
  }

  /** After a block the fold carries on from the state the block left. */
  lemma BlockThen(st: ParseState, o: SceneObject, rest: seq<Line>)
    requires HasDefaults(o)
    ensures Fold(st, BlockTokens(o) + rest) == Fold(ParseState(st.objects + [o], None), rest)
  {
    BlockFold(st, o);
    FoldConcat(st, BlockTokens(o), rest);
  }

  /** Outside any block, the lines of a run of blocks emit their objects in order. */
  lemma {:induction false} ScriptFold(st: ParseState, objs: seq<SceneObject>)
    requires st.cursor.None?
    requires forall i :: 0 <= i < |objs| ==> HasDefaults(objs[i])
    ensures Fold(st, ScriptTokens(objs)) == Success(ParseState(st.objects + objs, None))
    decreases |objs|
  {
    if objs == [] {
      assert st.objects + objs == st.objects;
    } else {
      var o, rest := objs[0], objs[1..];
      assert ScriptTokens(objs) == BlockTokens(o) + ScriptTokens(rest);
      BlockThen(st, o, ScriptTokens(rest));
      ScriptFold(ParseState(st.objects + [o], None), rest);
      assert st.objects + [o] + rest == st.objects + objs;
    }
  }

  lemma MappingLinesHaveNoNewline(ms: seq<Mapping>)
    requires forall i :: 0 <= i < |ms| ==> WellFormedMapping(ms[i])
    ensures forall i :: 0 <= i < |MappingLines(ms)| ==> '\n' !in MappingLines(ms)[i]
  {
    forall i | 0 <= i < |ms|
      ensures '\n' !in MappingLines(ms)[i]
    {
      MappingLineLacks(ms[i], '\n');
      NotInConcat('\n', "  ", FormatMapping(ms[i]));
    }
  }

  lemma {:induction false} ScriptLinesShape(objs: seq<SceneObject>)
    requires forall i :: 0 <= i < |objs| ==> WellFormedObject(objs[i])
    ensures forall i :: 0 <= i < |ScriptLines(objs)| ==> '\n' !in ScriptLines(objs)[i]
    ensures objs != [] ==> |ScriptLines(objs)| >= 2
    ensures objs != [] ==> ScriptLines(objs)[0] == objs[0].name + ":" + "cube" + "{"
    ensures objs != [] ==> ScriptLines(objs)[|ScriptLines(objs)| - 1] == "}"
    decreases |objs|
  {
    if objs != [] {
      ScriptLinesShape(objs[1..]);
      MappingLinesHaveNoNewline(objs[0].mappings);
      assert '\n' !in objs[0].name + ":" + "cube" + "{";
    }
  }

  lemma FormatScriptTrimmed(objs: seq<SceneObject>)
    requires |objs| >= 1
    requires forall i :: 0 <= i < |objs| ==> WellFormedObject(objs[i])
    ensures Trim(FormatScript(objs)) == FormatScript(objs)
  {
    var lines := ScriptLines(objs);
    ScriptLinesShape(objs);
    JoinFirst(lines, "\n");
    JoinLast(lines, "\n");
    TrimKeepsTrimmed(FormatScript(objs));
  }

  lemma FormatScriptSplits(objs: seq<SceneObject>)
    requires |objs| >= 1
    requires forall i :: 0 <= i < |objs| ==> WellFormedObject(objs[i])
    ensures Split(Trim(FormatScript(objs)), "\n") == ScriptLines(objs)
  {
    FormatScriptTrimmed(objs);
    ScriptLinesShape(objs);
    SplitJoin(ScriptLines(objs), "\n");
  }

  lemma FormatScriptLines(objs: seq<SceneObject>)
    requires |objs| >= 1
    requires forall i :: 0 <= i < |objs| ==> WellFormedObject(objs[i])
    ensures Tokens(FormatScript(objs)) == ScriptTokens(objs)
  {
    FormatScriptSplits(objs);
    ScriptLinesTokens(objs);
  }

  /** A parse whose fold over the lines succeeds returns the objects it emitted. */
  lemma ParseOfFold(script: string, st: ParseState)
    requires script != "" && Fold(Start, Tokens(script)) == Success(st)
    ensures ParseScriptAndUpdateObjects(Str(script)) == Success(st.objects)
  {
  }

  /** Round trip: any non-empty list of well-formed objects is read back,
      in order, from its script text. */
  lemma FormatScriptRoundTrip(objs: seq<SceneObject>)
    requires |objs| >= 1
    requires forall i :: 0 <= i < |objs| ==> WellFormedObject(objs[i])
    ensures ParseScriptAndUpdateObjects(Str(FormatScript(objs))) == Success(objs)
  {
    FormatScriptLines(objs);
    ScriptLinesShape(objs);
    JoinFirst(ScriptLines(objs), "\n");
    ScriptFold(Start, objs);
    assert [] + objs == objs;
    ParseOfFold(FormatScript(objs), ParseState(objs, None));
  }

  /** The editor's initial script. */
  const EditorDefaultScript: string :=
    "Object1:cube{" + "\n" + ("  " + DefaultMappingText) + "\n" + "}"

  /** The text `rotation.z(0,90)<>lowPower(10,100)`, kept in pieces. */
  const DefaultMappingText: string :=
    "rotation.z" + "(" + "0" + "," + "90" + ")" + "<>" + "lowPower" + "(" + "10" + "," + "100" + ")"

  const DefaultMapping: Mapping :=
    Mapping("rotation.z", Bounds("0", Some("90")), "lowPower", Bounds("10", Some("100")))

  const DefaultObject: SceneObject := NewObject("Object1").(mappings := [DefaultMapping])

  lemma JoinThree(a: string, b: string, c: string, sep: string)
    ensures Join([a, b, c], sep) == a + sep + b + sep + c
  {
    assert [a, b, c][1..] == [b, c] && [b, c][1..] == [c];
    assert Join([b, c], sep) == b + sep + c;
    assert a + sep + (b + sep + c) == a + sep + b + sep + c;
  }

  lemma DefaultMappingLine()
    ensures FormatMapping(DefaultMapping) == DefaultMappingText
  {
  }

  lemma DefaultScriptLines()
    ensures ScriptLines([DefaultObject]) ==
      ["Object1:cube{", "  " + DefaultMappingText, "}"]
  {
    var l1, l2, l3 := "Object1:cube{", "  " + DefaultMappingText, "}";
    DefaultMappingLine();
    assert MappingLines([DefaultMapping]) == [l2];
    assert DefaultObject.name == "Object1" && DefaultObject.mappings == [DefaultMapping];
    assert l1 == "Object1" + ":" + "cube" + "{";
    assert BlockLines(DefaultObject) == [l1] + [l2] + [l3];
    assert [DefaultObject][1..] == [];
    assert ScriptLines([DefaultObject]) == BlockLines(DefaultObject) + ScriptLines([]);
  }

  lemma EditorDefaultScriptFormat()
    ensures EditorDefaultScript == FormatScript([DefaultObject])
  {
    var l1, l2, l3 := "Object1:cube{", "  " + DefaultMappingText, "}";
    DefaultScriptLines();
    assert FormatScript([DefaultObject]) == Join([l1, l2, l3], "\n");
    JoinThree(l1, l2, l3, "\n");
    assert EditorDefaultScript == l1 + "\n" + l2 + "\n" + l3;
  }

  /** The editor's initial script yields one cube `Object1` with one mapping
      from `lowPower` in 10..100 to `rotation.z` in 0..90. */
  lemma EditorDefaultScriptParses()
    ensures ParseScriptAndUpdateObjects(Str(EditorDefaultScript)) == Success([DefaultObject])
  {
    EditorDefaultScriptFormat();
    DefaultObjectWellFormed();
    FormatScriptRoundTrip([DefaultObject]);
  }

  lemma DefaultObjectWellFormed()
    ensures WellFormedObject(DefaultObject)
  {
    DefaultTokensPlain();
    assert WellFormedMapping(DefaultMapping);
  }

  lemma DefaultTokensPlain()
    ensures PlainToken("Object1") && Trimmed("Object1")
    ensures PlainToken("rotation.z") && Trimmed("rotation.z")
    ensures PlainToken("lowPower") && Trimmed("lowPower")
    ensures PlainBounds(Bounds("0", Some("90"))) && PlainBounds(Bounds("10", Some("100")))
  {
  }
}

=== FILE: parse_script_component.dfy ===
/** The structured-document front end of the editor
    (src/components/Editor/ParseScriptComponent.js): a script that decodes
    to an array of object records is normalised field by field, and the
    component's state follows the outcome of each new script. */
module ParseScriptComponent {
  import opened Wrappers
  import opened JsValues
  import opened JsStrings
  import opened JsNumbers
  import opened Scene

  /** `getGeometry(type)`: a `switch` on strict equality where only
      `'sphere'` selects a sphere; `'cube'` and every other value fall back
      to the box. */
  function GetGeometry(kind: JsValue): (g: Geometry)
    ensures g == Sphere <==> kind == Str("sphere")
  {
    if kind == Str("cube") then Cube
    else if kind == Str("sphere") then Sphere
    else Cube
  }

  /** The colour handed to the material: a string is read with
      `parseInt(_, 16)`, any other value goes through `|| 0x00ff00`. */
  function Colour(c: JsValue): (r: JsValue)
    ensures c.Str? ==> r.Num? || r == NaN
    ensures !c.Str? && Falsy(c) ==> r == Num(DefaultColor as real)
    ensures !c.Str? && !Falsy(c) ==> r == c
    ensures !r.Str?
  {
    if c.Str? then ParseIntHex(c.s) else Or(c, Num(DefaultColor as real))
  }

  /** A normalised object. The name, colour, transforms, mappings and layer
      stay JavaScript values: the component copies them without checking. */
  datatype Entry = Entry(
    name: JsValue,
    geometry: Geometry,
    color: JsValue,
    position: JsValue,
    rotation: JsValue,
    scale: JsValue,
    mappings: JsValue,
    layer: JsValue)

  /** The body of the `forEach` callback for one array element. Reading a
      field of `null` or `undefined` throws, so such elements are excluded
      here and handled by `NormaliseAll`. */
  function NormaliseEntry(v: JsValue): (e: Entry)
    requires !Nullish(v)
    ensures e.name == Get(v, "name")
    ensures e.geometry == Sphere <==> Get(v, "geometry") == Str("sphere")
    ensures e.color == Colour(Get(v, "color"))
    ensures Falsy(Get(v, "position")) ==> e.position == VecValue(Origin)
    ensures !Falsy(Get(v, "position")) ==> e.position == Get(v, "position")
    ensures Falsy(Get(v, "rotation")) ==> e.rotation == VecValue(Origin)
    ensures !Falsy(Get(v, "rotation")) ==> e.rotation == Get(v, "rotation")
    ensures Falsy(Get(v, "scale")) ==> e.scale == VecValue(UnitScale)
    ensures !Falsy(Get(v, "scale")) ==> e.scale == Get(v, "scale")
    ensures Falsy(Get(v, "mappings")) ==> e.mappings == Arr([])
    ensures !Falsy(Get(v, "mappings")) ==> e.mappings == Get(v, "mappings")
    ensures e.layer == Null <==> Nullish(Get(v, "layer"))
    ensures Get(v, "layer") != Undefined ==> e.layer == Get(v, "layer")
  {
    Entry(
      Get(v, "name"),
      GetGeometry(Or(Get(v, "geometry"), Str("cube"))),
      Colour(Get(v, "color")),
      Or(Get(v, "position"), VecValue(Origin)),
      Or(Get(v, "rotation"), VecValue(Origin)),
      Or(Get(v, "scale"), VecValue(UnitScale)),
      Or(Get(v, "mappings"), Arr([])),
      if Get(v, "layer") != Undefined then Get(v, "layer") else Null)
  }

  /** Why `parseScript` threw. */
  datatype DocumentError =
      /** `JSON.parse` rejected the text, with the engine's message. */
    | SyntaxError(message: string)
      /** The decoded value has no `forEach` method. */
    | NotAnArray(value: JsValue)
      /** The element at `index` is `null` or `undefined`; reading its
          `geometry` throws. */
    | NullishEntry(index: nat, value: JsValue)

  /** The message of the rethrown `Error`; the TypeError texts are V8's. */
  function Message(e: DocumentError): (msg: string)
    ensures StartsWith(msg, ErrorPrefix)
    ensures e.SyntaxError? ==> EndsWith(msg, e.message)
  {
    var prefix := ErrorPrefix;
    var detail := match e
      case SyntaxError(m) => m
      case NotAnArray(v) =>
        if v == Null then "Cannot read properties of null (reading 'forEach')"
        else if v == Undefined then "Cannot read properties of undefined (reading 'forEach')"
        else "jsonData.forEach is not a function"
      case NullishEntry(_, v) =>
        if v == Null then "Cannot read properties of null (reading 'geometry')"
        else "Cannot read properties of undefined (reading 'geometry')";
    assert (prefix + detail)[..|prefix|] == prefix;
    assert e.SyntaxError? ==> (prefix + detail)[|prefix + detail| - |e.message|..] == e.message;
    prefix + detail
  }

  /** The `forEach` over the elements: every element normalised in order,
      or the index of the first element whose field read throws. */
  function NormaliseAll(elems: seq<JsValue>): (r: Result<seq<Entry>, nat>)
    ensures r.Success? <==> forall i :: 0 <= i < |elems| ==> !Nullish(elems[i])
    ensures r.Success? ==> |r.value| == |elems|
    ensures r.Success? ==> forall i :: 0 <= i < |elems| ==> r.value[i] == NormaliseEntry(elems[i])
    ensures r.Failure? ==> r.error < |elems| && Nullish(elems[r.error])
    ensures r.Failure? ==> forall i :: 0 <= i < r.error ==> !Nullish(elems[i])
  {
    if elems == [] then Success([])
    else if Nullish(elems[0]) then Failure(0)
    else
      match NormaliseAll(elems[1..])
      case Failure(i) => Failure(i + 1)
      case Success(rest) =>
        Success(ConsEntries(elems, NormaliseEntry(elems[0]), rest))
  }

  /** The entries of a whole array from its first element's entry and the
      entries of the rest. */
  function ConsEntries(elems: seq<JsValue>, first: Entry, rest: seq<Entry>): (r: seq<Entry>)
    requires elems != [] && !Nullish(elems[0]) && first == NormaliseEntry(elems[0])
    requires |rest| == |elems| - 1
    requires forall i :: 0 <= i < |rest| ==> !Nullish(elems[1..][i]) && rest[i] == NormaliseEntry(elems[1..][i])
    ensures |r| == |elems|
    ensures forall i :: 0 <= i < |elems| ==> !Nullish(elems[i]) && r[i] == NormaliseEntry(elems[i])
  {
    var r := [first] + rest;
    assert forall i :: 1 <= i < |elems| ==> r[i] == rest[i - 1] && elems[i] == elems[1..][i - 1];
    r
  }

  /** `parseScript` after `JSON.parse`: the decoded document must be an
      array whose elements are all non-nullish; nothing partial is returned. */
  function ParseDocument(doc: JsValue): (r: Result<seq<Entry>, DocumentError>)
    ensures !doc.Arr? ==> r == Failure(NotAnArray(doc))
    ensures doc.Arr? ==> (r.Success? <==> forall i :: 0 <= i < |doc.elems| ==> !Nullish(doc.elems[i]))
    ensures doc.Arr? && r.Success? ==> |r.value| == |doc.elems|
    ensures doc.Arr? && r.Success? ==>
      forall i :: 0 <= i < |doc.elems| ==> r.value[i] == NormaliseEntry(doc.elems[i])
    ensures r.Failure? && r.error.NullishEntry? ==>
      && doc.Arr? && r.error.index < |doc.elems|
      && r.error.value == doc.elems[r.error.index]
      && Nullish(r.error.value)
      && forall i :: 0 <= i < r.error.index ==> !Nullish(doc.elems[i])
  {
    if !doc.Arr? then Failure(NotAnArray(doc))
    else
      match NormaliseAll(doc.elems)
      case Failure(i) => Failure(NullishEntry(i, doc.elems[i]))
      case Success(entries) => Success(entries)
  }

  /** `parseScript(script)`. `JSON.parse` is not modelled: it is the
      parameter `jsonParse`, which yields the decoded value or the message
      of the `SyntaxError` it throws. */
  function ParseScript(script: string, jsonParse: string -> Result<JsValue, string>): (r: Result<seq<Entry>, DocumentError>)
    ensures var d := jsonParse(script);
      r.Success? <==> d.Success? && d.value.Arr? && forall i :: 0 <= i < |d.value.elems| ==> !Nullish(d.value.elems[i])
    ensures var d := jsonParse(script);
      r.Success? ==> |r.value| == |d.value.elems| && forall i :: 0 <= i < |r.value| ==> r.value[i] == NormaliseEntry(d.value.elems[i])
    ensures var d := jsonParse(script);
      d.Failure? ==> r == Failure(SyntaxError(d.error))
    ensures var d := jsonParse(script);
      d.Success? && !d.value.Arr? ==> r == Failure(NotAnArray(d.value))
    ensures var d := jsonParse(script);
      r.Failure? && r.error.NullishEntry? ==>
        && d.Success? && d.value.Arr? && r.error.index < |d.value.elems|
        && r.error.value == d.value.elems[r.error.index] && Nullish(r.error.value)
        && forall i :: 0 <= i < r.error.index ==> !Nullish(d.value.elems[i])
  {
    match jsonParse(script)
    case Failure(m) => Failure(SyntaxError(m))
    case Success(doc) => ParseDocument(doc)
  }

  /** The record an entry would be written back as, geometry as its tag. */
  function ToRecord(e: Entry): JsValue {
    Obj(map[
      "name" := e.name,
      "geometry" := Str(if e.geometry == Sphere then "sphere" else "cube"),
      "color" := e.color,
      "position" := e.position,
      "rotation" := e.rotation,
      "scale" := e.scale,
      "mappings" := e.mappings,
      "layer" := e.layer])
  }

  /** Normalising is stable: an entry written back as a record normalises
      to itself, unless its colour came out falsy (0 or NaN), which the
      second pass replaces by green. */
  lemma NormaliseStable(v: JsValue)
    requires !Nullish(v)
    ensures var e := NormaliseEntry(v);
      !Falsy(e.color) <==> NormaliseEntry(ToRecord(e)) == e
  {
    var e := NormaliseEntry(v);
    ToRecordReadsBack(e);
    if Falsy(e.color) {
      assert NormaliseEntry(ToRecord(e)).color == Num(DefaultColor as real);
    }
  }

  /** Each field read of a written-back entry gives the entry's field. */
  lemma ToRecordReadsBack(e: Entry)
    ensures Get(ToRecord(e), "name") == e.name
    ensures Get(ToRecord(e), "geometry") == Str(if e.geometry == Sphere then "sphere" else "cube")
    ensures Get(ToRecord(e), "color") == e.color
    ensures Get(ToRecord(e), "position") == e.position
    ensures Get(ToRecord(e), "rotation") == e.rotation
    ensures Get(ToRecord(e), "scale") == e.scale
    ensures Get(ToRecord(e), "mappings") == e.mappings
    ensures Get(ToRecord(e), "layer") == e.layer
  {
  }

  /** A hex string is read as base 16. */
  lemma ColourOfGreenString()
    ensures Colour(Str("00ff00")) == Num(65280.0)
  {
    ParseIntHexGreen();
  }

  /** The string "0" gives black: the string branch has no `||` default. */
  lemma ColourOfZeroString()
    ensures Colour(Str("0")) == Num(0.0)
  {
    ParseIntHexOfDigits("0");
  }

  /** The empty string gives NaN rather than the default. */
  lemma ColourOfEmptyString()
    ensures Colour(Str("")) == NaN
  {
    ParseIntHexWithoutDigits();
  }

  /** A missing colour and a numeric 0 (black) both become green; other
      numbers are kept. */
  lemma ColourOfNonStrings()
    ensures Colour(Undefined) == Num(65280.0)
    ensures Colour(Num(0.0)) == Num(65280.0)
    ensures Colour(Num(255.0)) == Num(255.0)
  {
  }

  /** A hex string written with the digits of `n` gives the colour `n`. */
  lemma ColourOfHexString(n: nat)
    ensures Colour(Str(HexDigitsOf(n))) == Num(n as real)
    ensures Colour(Str("0x" + HexDigitsOf(n))) == Num(n as real)
  {
    ParseIntHexRoundTrip(n);
  }

  /** What the component shows in its log box. */
  datatype Log =
    | Text(text: string)
      /** `JSON.stringify(parsedObjects, null, 2)`, not spelled out. */
    | Stringified(objects: seq<Entry>)

  /** The component's three pieces of state. */
  datatype EditorState = EditorState(log: Log, parsedObjects: seq<Entry>, pushEnabled: bool)

  /** The state at mount: an empty log, no objects, push disabled. */
  const Initial: EditorState := EditorState(Text(""), [], false)

  /** The effect run when the `script` prop changes. */
  function OnScriptChange(st: EditorState, script: string, jsonParse: string -> Result<JsValue, string>): (r: EditorState)
    ensures script == "" ==> r == st
    ensures script != "" && ParseScript(script, jsonParse).Success? ==>
      && r.parsedObjects == ParseScript(script, jsonParse).value
      && r.pushEnabled
      && r.log == Stringified(r.parsedObjects)
    ensures script != "" && ParseScript(script, jsonParse).Failure? ==>
      && r.parsedObjects == st.parsedObjects
      && !r.pushEnabled
      && r.log.Text?
      && StartsWith(r.log.text, "Error: " + ErrorPrefix)
  {
    if script == "" then st
    else
      match ParseScript(script, jsonParse)
      case Success(objects) => EditorState(Stringified(objects), objects, true)
      case Failure(e) => EditorState(Text(ErrorLog(e)), st.parsedObjects, false)
  }

  /** The log text of a failed parse, `Error: ${error.message}`. */
  function ErrorLog(e: DocumentError): (text: string)
    ensures StartsWith(text, "Error: " + ErrorPrefix)
  {
    StartsWithPrepend("Error: ", Message(e), ErrorPrefix);
    "Error: " + Message(e)
  }

  /** The effect only runs when the script changes; running it again on the
      same script would change nothing anyway. */
  lemma OnScriptChangeIdempotent(st: EditorState, script: string, jsonParse: string -> Result<JsValue, string>)
    ensures OnScriptChange(OnScriptChange(st, script, jsonParse), script, jsonParse) ==
      OnScriptChange(st, script, jsonParse)
  {
  }

  /** The state after the prop took each script in turn. */
  function Run(st: EditorState, scripts: seq<string>, jsonParse: string -> Result<JsValue, string>): (r: EditorState)
    decreases |scripts|
  {
    if scripts == [] then st
    else Run(OnScriptChange(st, scripts[0], jsonParse), scripts[1..], jsonParse)
  }

  /** The objects of the latest script that parsed, read from the end. */
  function LastParsed(scripts: seq<string>, jsonParse: string -> Result<JsValue, string>, before: seq<Entry>): seq<Entry>
    decreases |scripts|
  {
    if scripts == [] then before
    else
      var s := scripts[|scripts| - 1];
      if s != "" && ParseScript(s, jsonParse).Success? then ParseScript(s, jsonParse).value
      else LastParsed(scripts[..|scripts| - 1], jsonParse, before)
  }

  /** Whether the latest non-empty script parsed; `before` if there was none. */
  function LastOutcome(scripts: seq<string>, jsonParse: string -> Result<JsValue, string>, before: bool): bool
    decreases |scripts|
  {
    if scripts == [] then before
    else
      var s := scripts[|scripts| - 1];
      if s != "" then ParseScript(s, jsonParse).Success?
      else LastOutcome(scripts[..|scripts| - 1], jsonParse, before)
  }

  lemma {:induction false} RunSnoc(st: EditorState, scripts: seq<string>, s: string, jsonParse: string -> Result<JsValue, string>)
    ensures Run(st, scripts + [s], jsonParse) == OnScriptChange(Run(st, scripts, jsonParse), s, jsonParse)
    decreases |scripts|
  {
    if scripts == [] {
      assert scripts + [s] == [s];
    } else {
      assert (scripts + [s])[1..] == scripts[1..] + [s];
      RunSnoc(OnScriptChange(st, scripts[0], jsonParse), scripts[1..], s, jsonParse);
    }
  }

  /** After any sequence of scripts the component holds the objects of the
      latest one that parsed, and push is enabled exactly when the latest
      non-empty script parsed: a failing script never loses what the last
      good one produced. */
  lemma {:induction false} RunKeepsLastSuccess(st: EditorState, scripts: seq<string>, jsonParse: string -> Result<JsValue, string>)
    ensures Run(st, scripts, jsonParse).parsedObjects == LastParsed(scripts, jsonParse, st.parsedObjects)
    ensures Run(st, scripts, jsonParse).pushEnabled == LastOutcome(scripts, jsonParse, st.pushEnabled)
    decreases |scripts|
  {
    if scripts != [] {
      var init, s := scripts[..|scripts| - 1], scripts[|scripts| - 1];
      assert scripts == init + [s];
      RunSnoc(st, init, s, jsonParse);
      RunKeepsLastSuccess(st, init, jsonParse);
    }
  }

  /** From mount, the component holds the objects of the latest script that
      parsed (none if no script did), push is enabled exactly when the latest
      non-empty script parsed, and a prop that only ever held empty scripts
      leaves the mount state untouched. */
  lemma {:induction false} MountedRun(scripts: seq<string>, jsonParse: string -> Result<JsValue, string>)
    ensures Run(Initial, scripts, jsonParse).parsedObjects == LastParsed(scripts, jsonParse, [])
    ensures Run(Initial, scripts, jsonParse).pushEnabled == LastOutcome(scripts, jsonParse, false)
    ensures (forall k :: 0 <= k < |scripts| ==> scripts[k] == "") ==> Run(Initial, scripts, jsonParse) == Initial
  {
    RunKeepsLastSuccess(Initial, scripts, jsonParse);
    if forall k :: 0 <= k < |scripts| ==> scripts[k] == "" {
      EmptyScriptsChangeNothing(Initial, scripts, jsonParse);
    }
  }

  /** Empty scripts never change the state. */
  lemma {:induction false} EmptyScriptsChangeNothing(st: EditorState, scripts: seq<string>, jsonParse: string -> Result<JsValue, string>)
    requires forall k :: 0 <= k < |scripts| ==> scripts[k] == ""
    ensures Run(st, scripts, jsonParse) == st
    decreases |scripts|
  {
    if scripts != [] {
      assert scripts[0] == "";
      EmptyScriptsChangeNothing(st, scripts[1..], jsonParse);
    }
  }
}

=== FILE: scene.dfy ===
/** What both script front ends hand to the renderer: a geometry tag in
    place of a three.js geometry object, and the default material colour. */
module Scene {
  import opened JsValues

  /** `THREE.BoxGeometry(1, 1, 1)` or `THREE.SphereGeometry(0.5, 32, 32)`. */
  datatype Geometry = Cube | Sphere

  /** The `MeshBasicMaterial` colour used when a script gives none: green. */
  const DefaultColor: int := 0x00ff00

  /** A position, rotation or scale: the source's three-number arrays. */
  datatype Vec3 = Vec3(x: real, y: real, z: real)

  /** `[0, 0, 0]`, the default position and rotation. */
  const Origin: Vec3 := Vec3(0.0, 0.0, 0.0)

  /** `[1, 1, 1]`, the default scale. */
  const UnitScale: Vec3 := Vec3(1.0, 1.0, 1.0)

  /** A vector as the JavaScript array literal that spells it. */
  function VecValue(v: Vec3): (a: JsValue)
    ensures a.Arr? && |a.elems| == 3
    ensures a.elems[0] == Num(v.x) && a.elems[1] == Num(v.y) && a.elems[2] == Num(v.z)
  {
    Arr([Num(v.x), Num(v.y), Num(v.z)])
  }

  /** What both front ends put in front of the message of an error they
      rethrow. */
  const ErrorPrefix: string := "Error parsing script: "
}

=== FILE: seqs.dfy ===
/** Element-wise mapping over sequences, JavaScript's `Array.prototype.map`. */
module Seqs {

  function Map<A, B>(f: A -> B, xs: seq<A>): (ys: seq<B>)
    ensures |ys| == |xs|
    ensures forall i :: 0 <= i < |xs| ==> ys[i] == f(xs[i])
  {
    seq(|xs|, i requires 0 <= i < |xs| => f(xs[i]))
  }

  /** Mapping a concatenation maps each part. */
  lemma MapConcat<A, B>(f: A -> B, a: seq<A>, b: seq<A>)
    ensures Map(f, a + b) == Map(f, a) + Map(f, b)
  {
    var l, r := Map(f, a + b), Map(f, a) + Map(f, b);
    forall i | 0 <= i < |l|
      ensures l[i] == r[i]
    {
      if i < |a| {
        assert (a + b)[i] == a[i];
      } else {
        assert (a + b)[i] == b[i - |a|];
      }
    }
  }

  /** Mapping a sequence framed by two elements. */
  lemma MapFramed<A, B>(f: A -> B, x: A, ys: seq<A>, z: A)
    ensures Map(f, [x] + ys + [z]) == [f(x)] + Map(f, ys) + [f(z)]
  {
    MapConcat(f, [x], ys);
    MapConcat(f, [x] + ys, [z]);
  }
}

=== FILE: wrappers.dfy ===
/** Option and Result, the two shapes the model uses for JavaScript's
    `undefined` and for thrown errors. */
module Wrappers {

  /** `None` stands for an absent value (JavaScript `undefined`). */
  datatype Option<+T> = None | Some(value: T)

  /** `Failure` stands for an exception escaping the modelled code. */
  datatype Result<+R, +E> = Success(value: R) | Failure(error: E) {
    predicate IsFailure() {
      Failure?
    }

    function PropagateFailure<U>(): Result<U, E>
      requires Failure?
    {
      Failure(error)
    }

    function Extract(): R
      requires Success?
    {
      value
    }
  }
}
